=== FILE: README.md ===
# Two-player Wordle server, modelled in Dafny

The project models the game core of a two-player online Wordle. Two players
register, wait in a one-slot queue and are paired into a room. Each player
then types letters into a five-character input, deletes them, and submits
guesses against their own secret word. The first player to guess right wins.
The game also ends when every player has used six guesses.

The model covers these parts:

- **Current server** (`backend/game.py`):
  - `Game`: the per-room state machine, modelled in `game.dfy` and `game_properties.dfy`.
  - `IdManager`: identifier issuing, modelled in `ids.dfy`.
  - `GameManager`: players, rooms and pairing, modelled in `registry.dfy`.
  - `MessageHandler.response` and `keep_open`: message dispatch, modelled in `dispatcher.dfy` and `dispatcher_properties.dfy`.
- **Earlier server** (`backend/_deprecated/server.py`): the global queue, the counters, `try_to_join_room`, the validators, `update_with_gameover` and the per-channel action loop. These are modelled in `legacy.dfy` and `legacy_properties.dfy`. The texts Python's `int()` accepts, which the action loop's parser relies on, are in `pyint.dfy`.
- **Web client**:
  - The board `Box`/`Grid` (`webpage/src/view/Grid.tsx`), in `grid.dfy`.
  - The keyboard controller `handleKeyPress` (`webpage/src/controller/KeyHandler.tsx`), in `keyhandler.dfy`.
  - How the client's requests meet the server's move rules, in `client_server.dfy`.

Every operation is a pure function from a state to a new state. A Python
exception becomes an `Err` of a `Result`, and the caller keeps its old
state. In the source almost every check runs before any change. There are
two exceptions. First, `create_game` draws the room id before it looks up the
two names, so its `KeyError` leaves that id spent. `Registry.CreateGame`
therefore returns the manager together with its outcome. Second, the earlier
server's action loop asserts that two channels are attached only after it
has changed the room. `Legacy.ApplyAction` therefore succeeds with the
changed state and reports that the connection ends.
Invariants are stated as ghost predicates:

- `Game.Valid`: every per-player map is keyed by the room's two player slots, the length limits hold, and a winner guessed right.
- `Registry.Inv`: rooms are valid games of registered players, and every mapped player's room lists them.
- `Dispatcher.HandlerInv`: the handler's own bookkeeping is consistent with the manager.
- `Legacy.Inv`: the earlier server's rooms, counters and channel lists are consistent, and no running room holds a player who has already found their word.

Each operation is proved to preserve its invariant.

The following behaviour is reproduced as the code has it, even where the
comments or the evident design suggest otherwise:

- A new room lists the joining player first and the waiting player second.
- `pair_players` never checks whether the waiting entry is the joining player. JOIN twice from one player who has not found a room yet gives a room `[p, p]`, and that room can never name a winner.
- Only the joining player is recorded as having found a room, never the waiting one. So `keep_open` keeps the waiter's channel open even after the game ends.
- Moves are accepted after the game is over, because the flag is never consulted.
- LETTER accepts any single character.
- The earlier server's join request takes any text as a player id, but its action parser passes the id through `int()`. A player named by a text that is not an integer numeral, such as "abc", is paired into a room and then has every action refused.
- The earlier server's `letter_ok` reads `not a <= c and c <= z` as `(not a <= c) and c <= z`. It therefore rejects exactly the characters below `a`, and lets `{` or `~` through.
- The earlier server's `update_with_gameover` scans the room in order and names the first solved player. It runs after every accepted action, though, so a running room never holds a solved player. The action that ends a game therefore always names its own actor, and the room-order scan would decide only in a state that never occurs. Running out of guesses never ends its game.
- The board colours an empty box of a short submitted row yellow, because JavaScript's `"word".includes("")` is true.

## Model

| member | source | states |
|---|---|---|
| Ids.GenerateId | backend/game.py:202-211 | the issued id was never issued before and is not empty, and it is remembered afterwards; a fresh draw is used as it is |
| Ids.GenerateManyFresh | backend/game.py:202-211 | any run of issues yields pairwise distinct ids, none issued before and all remembered afterwards |
| Game.NewGame | backend/game.py:118-136 | a new room is valid, holds the two ids in order with empty inputs and histories, nobody right, no winner and the game not over; with a repeated id the later name and word win |
| Game.MinLengthIsExhausted | backend/game.py:149-150 | with at most six guesses each, "the shortest history has six entries" holds exactly when every player has six |
| Game.RecordGuess | backend/game.py:139-146 | the input moves into the history; the guesser becomes right exactly on their secret word; a new winner is the guesser, and only while not everybody is right; an existing winner is kept |
| Game.WinnerStaysPut | backend/game.py:142-146 | with two player slots, once a player has won, a later correct guess cannot replace the winner |
| Game.ApplyGuess | backend/game.py:139-151 | after a recorded guess the room stays valid, and the game is over exactly when it already was, or someone is right, or every history is full |
| Game.GuessMove | backend/game.py:160-168 | GUESS is refused exactly for an unknown player, six recorded guesses or an input not of five characters; otherwise the input is appended to the history and cleared |
| Game.LetterMove | backend/game.py:170-177 | LETTER is refused exactly for a letter that is not one character, an unknown player or a full input; otherwise only that input grows by the letter |
| Game.BackspaceMove | backend/game.py:179-183 | BACKSPACE is refused exactly for an unknown player or an empty input; otherwise only that input loses its last character |
| Game.UpdateGameState | backend/game.py:159-183 | an accepted move keeps the room valid with the same players, names, id and words; kinds other than the three moves change nothing |
| GameProperties.MoveFrame | backend/game.py:139-183 | an accepted move changes only the acting player's entries and the room-wide outcome; game over stays over, and a winner stays the winner |
| GameProperties.GuessFrame | backend/game.py:139-168 | the frame property for GUESS: a new winner is the guesser after a correct guess |
| GameProperties.LetterFrame | backend/game.py:170-177 | the frame property for LETTER |
| GameProperties.BackspaceFrame | backend/game.py:179-183 | the frame property for BACKSPACE |
| GameProperties.GuessDecidesGameOver | backend/game.py:148-151 | the game-over rule of Game.ApplyGuess, restated for a GUESS message as GuessMove handles it: afterwards the game is over exactly when it was, or some player is right, or every player has six guesses |
| GameProperties.CorrectGuessWins | backend/game.py:142-151 | a correct five-letter guess, while the opponent is not right, names the guesser winner and ends the game |
| GameProperties.SelfRoomHasNoWinner | backend/game.py:142-146 | in a room whose two slots hold the same player, no guess ever names a winner |
| GameProperties.MovesContinueAfterGameOver | backend/game.py:170-177 | a letter is still accepted after the game is over |
| GameProperties.AnyCharacterIsALetter | backend/game.py:170-177 | any single character is accepted as a letter, whatever its case or alphabet |
| GameProperties.ReplayKeepsOutcome | backend/game.py:159-183 | over any sequence of moves the room stays valid with the same roster, inputs stay within five, histories within six, game over is permanent and the winner is never replaced |
| GameProperties.ReplayStep | backend/game.py:159-183 | replaying from an accepted move continues from the state that move produced |
| GameProperties.TypingAppends | backend/game.py:153-154 | replaying the letters of a word into an input with room appends exactly that word and changes nothing else |
| GameProperties.TypedValid | backend/game.py:170-177 | appending within the length limit keeps the room valid |
| GameProperties.CraneScenario | backend/game.py:139-177 | typing c, r, a, n, e and submitting one's own secret "crane" records it, marks the player right, names them winner and ends the game |
| Registry.InitialInv | backend/game.py:213-230 | the empty manager satisfies the registry invariant |
| Registry.CreatePlayer | backend/game.py:233-237 | a fresh non-empty id is bound to the channel and the name, and nothing else changes |
| Registry.CreateGame | backend/game.py:240-249 | the room id is drawn first, so naming an unregistered player fails with that id spent and nothing else changed; otherwise a fresh room holds a new game of the two players in order, both map to it, and no existing room changes; the invariant is kept either way |
| Registry.PairPlayers | backend/game.py:251-259 | fails exactly for an unregistered player; on an empty queue the player waits and no room is made; otherwise the waiter leaves the queue and a fresh room holds a new game [joiner, waiter] with empty inputs, no winner and the two drawn words; existing rooms are untouched |
| Registry.PairWithWaiter | backend/game.py:256-259 | popping the waiting entry empties the queue and opens a fresh room holding a new game [joiner, waiter] that both map to; nothing else but the room ids changes |
| Dispatcher.Broadcast | backend/game.py:298-305 | the room's state goes to each of its player ids, in room order |
| Dispatcher.MoveInRoom | backend/game.py:342-346 | a move fails exactly for a missing room or a refused move; otherwise only that room's game changes, there is no reply, and the new state goes to both players |
| Dispatcher.Join | backend/game.py:325-337 | a player who found a room gets its state again and nothing changes; otherwise the player queues and is told so, or gets a fresh room holding a new game [player, waiter], only the joiner is marked as having found it, and the names, channels and other rooms stay as they were |
| Dispatcher.Response | backend/game.py:309-350 | the handler invariant is kept; CREATE from a known channel repeats its id and changes nothing, and from a new one registers a fresh id while the queue, rooms, pairing and room ids stay as they are; other kinds are refused; a move leaves players, queue and pairing alone |
| Dispatcher.KeepOpen | backend/game.py:355-360 | the lookup fails exactly for a channel that never sent CREATE; the channel closes exactly when its player found a room whose game is over |
| DispatcherProperties.Run | backend/game.py:309-350 | any sequence of handled messages keeps the handler invariant |
| DispatcherProperties.StepAdvances | backend/game.py:309-350 | a handled message never removes a room, changes a room's players, names or words, reopens a finished game, replaces a winner, unregisters a player or rebinds a channel; a player joins the found-room set only by sending JOIN |
| DispatcherProperties.RunAdvances | backend/game.py:309-350 | across any sequence of messages rooms persist with their roster, finished games stay finished, winners stay, registrations and channel bindings persist and the found-room set only grows |
| DispatcherProperties.WaiterChannelStaysOpen | backend/game.py:355-360 | a player who never found a room through their own JOIN keeps their channel open whatever else happens |
| DispatcherProperties.CreateIsIdempotent | backend/game.py:316-320 | a second CREATE on one channel returns the same id and changes nothing |
| DispatcherProperties.PairingOrder | backend/game.py:251-259 | after A waits and B joins, the room lists [B, A] with B's word first, the game is running with no winner and empty inputs and histories, its state goes to B then A, and only B is marked as having found it |
| DispatcherProperties.JoinTwicePairsWithSelf | backend/game.py:251-259 | a registered player who sends JOIN twice on an empty queue is paired with themself |
| Legacy.InitialInv | backend/_deprecated/server.py:87-96 | the empty server satisfies the invariant |
| Legacy.TryToPairPlayers | backend/_deprecated/server.py:73-84 | a player already queued is an error; on an empty queue the player becomes the queue; otherwise the last queued player is popped as an opponent different from the player |
| Legacy.CreateRoomId | backend/_deprecated/server.py:98-101 | the counter's next value is larger than any before and names no existing room |
| Legacy.CreatePlayerId | backend/_deprecated/server.py:103-106 | the counter advances and the id it returns is larger than every earlier one; nothing else changes |
| Legacy.CreatePlayerIds | backend/_deprecated/server.py:103-106 | successive player ids strictly increase and exceed every earlier one |
| Legacy.NewRoom | backend/_deprecated/server.py:129-147 | a new room lists [player, opponent] with empty inputs and histories, the two secret words, "false" game over and "none" winner |
| Legacy.TryToJoinRoom | backend/_deprecated/server.py:116-155 | a mapped player gets their room back unchanged; a queued player is an error; the first player waits; the second gets a fresh room with no channels that both map to; the invariant is kept |
| Legacy.OpenRoom | backend/_deprecated/server.py:122-155 | the pairing branch: the queue empties, a never-used room number is taken, and the room is created with no channels and both players mapped to it |
| Legacy.Attach | backend/_deprecated/server.py:287-291 | a first contact fails exactly when the room is missing, already has two channels or has this one; otherwise the channel is appended and is sent the room's current state |
| Legacy.FirstContactOk | backend/_deprecated/server.py:199-209 | a first contact is accepted only for an existing room that, with this channel attached, holds at most two channels and this one once |
| Legacy.RoomAndPlayerOk | backend/_deprecated/server.py:211-219 | an action is accepted only in an existing room where the actor has a place in the list of players |
| Legacy.LetterOk | backend/_deprecated/server.py:221-231 | a letter is accepted exactly for a non-empty payload whose character, when it is a single one, is not below 'a', while the input is not full |
| Legacy.BackspaceOk | backend/_deprecated/server.py:233-240 | a backspace is accepted exactly for an empty payload and a non-empty input; the bare `return` counts as refusal |
| Legacy.GuessOk | backend/_deprecated/server.py:242-253 | a guess is accepted exactly for an empty payload, a five-character input and fewer than six past guesses |
| Legacy.CharTestRejectsBelowA | backend/_deprecated/server.py:225 | the character test as written rejects exactly the characters below 'a' |
| Legacy.LetterOkLetsThroughAboveZ | backend/_deprecated/server.py:221-231 | "{" passes the letter check and "A" does not |
| Legacy.UpdateWithGameover | backend/_deprecated/server.py:256-266 | the game ends exactly when it was running and some player's secret word is among their past guesses; the first such player in room order is winner; nothing else changes |
| Legacy.DropLast | backend/_deprecated/server.py:320 | slicing off the last character of a non-empty text leaves what precedes it, and "" stays "" |
| Legacy.ApplyToRoom | backend/_deprecated/server.py:313-326 | only the actor's input and history change; a letter or backspace keeps the history, and a guess appends the input to it and clears the input |
| Legacy.ActionKeepsRoomValid | backend/_deprecated/server.py:313-326 | an accepted letter, backspace or guess keeps the room well formed and touches only the actor's entries |
| Legacy.ApplyAction | backend/_deprecated/server.py:297-338 | an action fails exactly for a player text `int()` refuses, a payload over one character, a missing room or player, or a failed validator; otherwise only its room changes, the invariant is kept, both channels are notified only when two are attached, the connection ends exactly when this action ended the game or fewer than two channels are attached, and an action that ends the game names its own actor winner |
| Legacy.UpdateNoticesWin | backend/_deprecated/server.py:256-266 | after the scan, a room still running holds no player who has found their word |
| Legacy.OnlyActorCanWin | backend/_deprecated/server.py:313-326 | in a running room with no solved player, an accepted action can make only its actor solved |
| LegacyProperties.ActionEffects | backend/_deprecated/server.py:313-326 | a letter appends its one-character payload; a backspace removes the last character of a non-empty input; a guess moves a five-character input into the history |
| LegacyProperties.ExhaustionNeverEndsGame | backend/_deprecated/server.py:256-266 | with six guesses each and neither word found, no accepted action ends the game |
| LegacyProperties.FirstListedPlayerWins | backend/_deprecated/server.py:256-266 | in a running room where both players have found their words, the scan names the first listed; no stored room is in that state (see LegacyProperties.RunningRoomIsUnsolved) |
| LegacyProperties.RunningRoomIsUnsolved | backend/_deprecated/server.py:256-266 | in every reachable server state, a running room has no player whose word is among their past guesses |
| LegacyProperties.JoinRoomIsIdempotent | backend/_deprecated/server.py:116-155 | asking again for a room returns the same room and changes nothing, for both members of a new pair |
| LegacyProperties.OpenedRoomIsIdempotent | backend/_deprecated/server.py:118-119 | after a room is opened, each of its members asking again gets it back with no change |
| LegacyProperties.ApplyAll | backend/_deprecated/server.py:294-338 | any sequence of actions keeps the invariant and changes only the rooms, never their set |
| LegacyProperties.FinishedGameStaysFinished | backend/_deprecated/server.py:256-266 | a finished game stays finished with the same winner and players, whatever actions follow |
| LegacyProperties.NonNumericPlayerIsStuck | backend/_deprecated/server.py:297-308 | a player whose id text `int()` refuses is paired into a room by the join request, and then every action of theirs is refused |
| PyInt.IsIntText | backend/_deprecated/server.py:303 | the texts `int()` accepts: after stripping surrounding whitespace and one optional sign, digits with single underscores only between two digits; so an accepted text, stripped, starts with a sign or a digit and ends with a digit |
| PyInt.IntValue | backend/_deprecated/server.py:303 | the number an accepted text denotes (its digits in base ten, underscores skipped, negated after a minus sign); it is negative only after a minus sign and never positive after one |
| PyInt.DecimalRoundTrip | backend/_deprecated/server.py:303 | `int(str(n)) == n`: every decimal numeral is accepted and denotes its number |
| PyInt.SignedNumeralAccepted | backend/_deprecated/server.py:303 | whitespace around a signed numeral is stripped and an underscore between digits is skipped: " -1_000\n" denotes -1000 |
| PyInt.NonNumeralsRefused | backend/_deprecated/server.py:303 | letters, a doubled underscore, a leading ASCII separator (U+001C) and the empty text are refused |
| LegacyProperties.NoThirdChannel | backend/_deprecated/server.py:199-209 | after two channels are attached to a room, a third first contact is refused |
| Grid.IncludesEmpty | webpage/src/view/Grid.tsx:62 | the empty text is included in every word |
| Grid.IncludesChar | webpage/src/view/Grid.tsx:62 | a one-character text is included exactly when the character occurs in the word |
| Grid.BoxLetter | webpage/src/view/Grid.tsx:50-58 | a box shows the letter of its submitted guess, or of the input on the row after the last submission, or nothing |
| Grid.Box | webpage/src/view/Grid.tsx:48-77 | an unsubmitted row is blank; a submitted box is green exactly on the right letter in the right place, yellow exactly on a different letter found in the word or on no letter, red otherwise |
| Grid.BuildGrid | webpage/src/view/Grid.tsx:109-128 | the board has six rows of five boxes, and row i, column j holds the box for that position |
| Grid.Row | webpage/src/view/Grid.tsx:116-128 | a row has five boxes, and box j is the box of column j |
| Grid.RowFromCells | webpage/src/view/Grid.tsx:119-127 | the boxes from a column on are those of the remaining columns, in order |
| Grid.RowFromSpells | webpage/src/view/Grid.tsx:50-58 | from any column on, a row spells the rest of the text it shows |
| Grid.RowSpellsGuess | webpage/src/view/Grid.tsx:50-58 | a submitted row spells its guess, and the next row spells the input being typed |
| Grid.LaterRowsEmpty | webpage/src/view/Grid.tsx:50-77 | a row below the one being typed shows nothing and is blank |
| Grid.AllGreenIffCorrect | webpage/src/view/Grid.tsx:59-67 | a submitted five-letter row is all green exactly when it is the secret word |
| Grid.ShortGuessShowsEmptyYellow | webpage/src/view/Grid.tsx:59-71 | the letterless boxes of a short submitted row are yellow |
| KeyHandler.LowerChar | webpage/src/controller/KeyHandler.tsx:57 | upper-case ASCII letters map to lower case, everything else is kept, and no result is upper case |
| KeyHandler.Lower | webpage/src/controller/KeyHandler.tsx:57 | lower-casing a key name works character by character and keeps its length |
| KeyHandler.LowerIdempotent | webpage/src/controller/KeyHandler.tsx:57 | lower-casing twice is lower-casing once |
| KeyHandler.HandleKeyPress | webpage/src/controller/KeyHandler.tsx:35-66 | before a name and a match nothing is sent; backspace deletes exactly on a non-empty input, enter submits exactly on a full one, a single letter a-z is typed, lower-cased, exactly while the input is not full |
| KeyHandler.CaseDoesNotMatter | webpage/src/controller/KeyHandler.tsx:57-63 | a key and its lower-case spelling do the same |
| KeyHandler.NeverASixthLetter | webpage/src/controller/KeyHandler.tsx:55-63 | a letter is only sent while fewer than five are typed |
| KeyHandler.UpperCaseLetterIsLowered | webpage/src/controller/KeyHandler.tsx:57-63 | typing "A" sends the letter "a" |
| KeyHandler.FullGuessOnlySubmits | webpage/src/controller/KeyHandler.tsx:55-63 | with five letters typed, enter submits and a further letter is ignored |
| ClientServer.RequestKind | webpage/src/model/State.tsx:408-429 | every request the key handler triggers is a GUESS, LETTER or BACKSPACE message, each key action with its own kind: a letter exactly as LETTER, a submit exactly as GUESS, a backspace exactly as BACKSPACE |
| ClientServer.ClientRequestsAreAccepted | backend/game.py:159-183 | every letter or deletion the client sends for a player's own input is accepted by the server; a submit is accepted exactly while fewer than six guesses are recorded |
| ClientServer.SubmitAfterSixthGuessIsRefused | webpage/src/controller/KeyHandler.tsx:55-61 | with six guesses recorded and five letters typed, enter still sends a submit, and the server refuses it |

## Left out

- Randomness: `uuid4()` becomes a `draw` parameter (`Registry.Env.draw`). A draw that collides or is empty falls back to a fixed unused candidate (`Ids.GenerateId`). So freshness is proved rather than left to chance, and the redraw loop is not modelled step by step.
- Secret words: the HTTP word fetches (`gen_word`, `create_secret_word`) become parameters (`Env.word1`, `Env.word2`, and the words passed to `Legacy.TryToJoinRoom`).
- I/O: channels are opaque numbers. Sending becomes returned data: a list of addressed messages, or for the earlier server the channels notified and the state sent to a newly attached channel. JSON encoding (`MessageCreator`, `to_json`), logging, FastAPI routing, the HTTP endpoints and `handle`'s exception reporting are not modelled.
- Message decoding: `Dispatcher.Message` is the decoded message. A missing field or an unknown `type` string (a `KeyError`/`ValueError` during decoding) is not modelled.
- Earlier server decoding: the comma-separated text of the action loop and of the first contact (`backend/_deprecated/server.py`, lines 276-308) arrives already decoded as an `Action`, a room number, the player text and the payload. The player text is kept as text, and whether `int()` accepts it is part of `Legacy.ApplyAction`. A malformed action number or room number only ends the connection and changes no state.
- Concurrency: the asyncio interleaving of handlers is not modelled. Each message is handled atomically, in the order given.
- `backend/server.py`, the space-shooter, and the benchmarks are not part of this model.
- Client rendering: React state, the hover shading of `Box` (it only lightens a colour), and the layout are not modelled.
- KeyHandler.LowerChar: models `toLowerCase` for the ASCII range only. Other characters are kept as they are, because Unicode case mapping is out of scope.
- Legacy.NewRoom: requires two distinct players. The only caller, `try_to_join_room`, pairs a player only with a different queued one.
- Legacy.UpdateWithGameover: requires a room of two listed players whose maps are keyed by them. Every room the server creates has this shape, and the source would raise on any other.
- Legacy.ApplyAction: `PyInt.IsIntText` knows only ASCII digits and the whitespace up to U+00FF that `int()` strips. Python's `int()` also accepts other Unicode decimal digits and whitespace, so a player text made of those is refused by the model and accepted by the source. Unicode character classes are out of scope. In the other direction, CPython 3.11 and later (and the 3.7 to 3.10 security releases) refuse numerals of more than 4300 digits with a `ValueError`, which the model accepts, because the interpreter version is not fixed by the source.
- Grid.Box: the board is modelled over code points, where the client indexes JavaScript's UTF-16 code units (`length` and `[col]` in `Grid.tsx`). The two agree only when every character of the guesses is in the Basic Multilingual Plane. A character outside it fills two boxes in the client and one in the model. `Grid.BoxLetter`, `KeyHandler.HandleKeyPress` (its `length` test of the typed guess) and the `ClientServer` lemmas make the same assumption.

=== FILE: client_server.dfy ===
/** How the web client's key handling (webpage/src/controller/KeyHandler.tsx)
    meets the server's move rules (backend/game.py:159-183): what the client
    lets through, the server accepts, except a submit after the sixth guess,
    which the client does not check for. */
module ClientServer {
  import opened Wrappers
  import opened Protocol
  import opened Game
  import opened KeyHandler

  /** The message kind a client request is sent as: each key action has
      its own kind, so the server can tell them apart. */
  function RequestKind(a: KeyAction): (k: MessageType)
    ensures k in {Guess, Letter, Backspace}
    ensures a.LetterKey? <==> k == Letter
    ensures a.GuessKey? <==> k == Guess
    ensures a.BackspaceKey? <==> k == Backspace
  {
    match a
    case BackspaceKey => Backspace
    case GuessKey => Guess
    case LetterKey(_) => Letter
  }

  /** The letter a client request carries; moves without one send "". */
  function RequestLetter(a: KeyAction): string
  {
    match a
    case LetterKey(l) => l
    case _ => ""
  }

  /** A letter or a deletion the client sends for the player's own current
      guess is always accepted by the server; a submit is accepted exactly
      when fewer than six guesses are on record. */
  lemma ClientRequestsAreAccepted(g: Game, p: PlayerId, gotName: bool, gotMatch: bool, key: string)
    requires Valid(g) && p in Players(g)
    ensures var r := HandleKeyPress(gotName, gotMatch, g.guesses[p], key);
      && (r.Some? && r.value != GuessKey ==>
            UpdateGameState(g, RequestKind(r.value), p, RequestLetter(r.value)).Ok?)
      && (r == Some(GuessKey) ==>
            (UpdateGameState(g, Guess, p, "").Ok? <==> |g.pastGuesses[p]| < MaxNumGuesses))
  {
  }

  /** With six guesses on record and five letters typed, enter still sends a
      submit, and the server refuses it. */
  lemma SubmitAfterSixthGuessIsRefused(g: Game, p: PlayerId)
    requires Valid(g) && p in Players(g)
    requires |g.pastGuesses[p]| == MaxNumGuesses && |g.guesses[p]| == MaxGuessLen
    ensures HandleKeyPress(true, true, g.guesses[p], "Enter") == Some(GuessKey)
    ensures UpdateGameState(g, Guess, p, "").Err?
  {
    FullGuessOnlySubmits(g.guesses[p]);
  }
}

=== FILE: dispatcher.dfy ===
/** The message dispatcher: `MessageHandler.response` and `keep_open` of
    backend/game.py, as a pure step from a handler state, an inbound message
    and the sending channel to the next state, the reply to the sender and
    the game-state broadcasts. */
module Dispatcher {
  import opened Wrappers
  import opened Protocol
  import opened Game
  import opened Registry

  /** The declared kinds `response` has no branch for. */
  type UnhandledKind = k: MessageType
    | k != Create && k != Join && k != Guess && k != Letter && k != Backspace
    witness Creation

  /** An inbound message, decoded from its `type` and `data` fields.  Any
      other declared kind (Creation, GameState, Leave, ...) is `OtherMsg`. */
  datatype Message =
    | CreateMsg(playerName: string)
    | JoinMsg(playerId: PlayerId)
    | GuessMsg(playerId: PlayerId, roomId: RoomId)
    | LetterMsg(playerId: PlayerId, roomId: RoomId, letter: string)
    | BackspaceMsg(playerId: PlayerId, roomId: RoomId)
    | OtherMsg(kind: UnhandledKind)

  /** What the server writes to a channel. */
  datatype Outbound =
    | CreationMsg(playerId: PlayerId)
    | NotEnoughPlayersMsg(queued: bool)
    | GameStateMsg(game: Game)

  /** One message addressed to a player's channel. */
  datatype Send = Send(to: PlayerId, msg: Outbound)

  /** The handler's own bookkeeping next to the game manager: which player a
      channel created, and which players found a room through their JOIN. */
  datatype Handler = Handler(
    gm: GameManager,
    socketToPlayer: map<Socket, PlayerId>,
    foundGame: set<PlayerId>)

  const Start := Handler(Registry.Initial, map[], {})

  /** The effect of one handled message. */
  datatype Step = Step(handler: Handler, reply: Option<Outbound>, sends: seq<Send>)

  /** Why handling failed; the source raises, the server reports the text to
      the sender and the state is left as it was. */
  datatype DispatchError =
    | NotRegistered
    | NoSuchRoom
    | BadMove(reason: MoveError)
    | Unsupported(kind: MessageType)
    | UnknownSocket

  ghost predicate HandlerInv(h: Handler)
  {
    && Registry.Inv(h.gm)
    && (forall s | s in h.socketToPlayer :: h.socketToPlayer[s] in h.gm.names)
    && h.foundGame <= h.gm.playerToGame.Keys
  }

  lemma StartInv()
    ensures HandlerInv(Start)
  {
    InitialInv();
  }

  /** `update_game_websockets_with_gamestate`: the room's state to each of
      its player ids, in the room's order. */
  function Broadcast(g: Game): (r: seq<Send>)
    ensures |r| == |g.playerIds|
    ensures forall i | 0 <= i < |r| :: r[i] == Send(g.playerIds[i], GameStateMsg(g))
  {
    seq(|g.playerIds|, i requires 0 <= i < |g.playerIds| => Send(g.playerIds[i], GameStateMsg(g)))
  }

  /** GUESS, LETTER and BACKSPACE: the room must exist; the move goes to its
      game and, when accepted, the new state goes to both players. */
  function MoveInRoom(h: Handler, kind: MessageType, p: PlayerId, room: RoomId, letter: string)
    : (r: Result<Step, DispatchError>)
    requires HandlerInv(h)
    ensures r.Ok? ==> HandlerInv(r.value.handler)
    ensures r.Err? <==>
      room !in h.gm.games
      || (RoomIsValid(h.gm, room); UpdateGameState(h.gm.games[room], kind, p, letter).Err?)
    ensures r.Ok? ==> (
      RoomIsValid(h.gm, room);
      var g' := UpdateGameState(h.gm.games[room], kind, p, letter).value;
      && r.value.handler == h.(gm := h.gm.(games := h.gm.games[room := g']))
      && r.value.reply == None
      && r.value.sends == Broadcast(g'))
  {
    if room !in h.gm.games then Err(NoSuchRoom)
    else
      RoomIsValid(h.gm, room);
      match UpdateGameState(h.gm.games[room], kind, p, letter)
      case Err(e) => Err(BadMove(e))
      case Ok(g') =>
        ReplaceGameKeepsInv(h.gm, room, g');
        Ok(Step(h.(gm := h.gm.(games := h.gm.games[room := g'])), None, Broadcast(g')))
  }

  /** JOIN: a player who found a room before gets its state re-broadcast
      without touching the queue; anybody else goes through `pair_players`
      and, when a room results, is recorded as having found it.  Only the
      joining player is recorded, never the waiting one. */
  function Join(h: Handler, p: PlayerId, env: Env): (r: Result<Step, DispatchError>)
    requires HandlerInv(h)
    ensures r.Ok? ==> HandlerInv(r.value.handler)
    ensures r.Err? <==> p !in h.foundGame && p !in h.gm.names
    // A player who already found a room: the queue and the games stay as
    // they are and the room's current state goes out again.
    ensures p in h.foundGame ==>
      && r.Ok? && r.value.handler == h && r.value.reply == None
      && (PlayerRoomExists(h.gm, p);
          r.value.sends == Broadcast(h.gm.games[h.gm.playerToGame[p]]))
    // Nobody waiting: the player queues and is told so.
    ensures p !in h.foundGame && p in h.gm.names && h.gm.queue == [] ==>
      && r.Ok?
      && r.value.handler == h.(gm := h.gm.(queue := [QueueEntry(h.gm.names[p], p)]))
      && r.value.reply == Some(NotEnoughPlayersMsg(true))
      && r.value.sends == []
    // Somebody waiting: a fresh room with the joining player first, its
    // state to both, and only the joining player marked as having found it.
    ensures p !in h.foundGame && p in h.gm.names && h.gm.queue != [] ==>
      && r.Ok?
      && var h' := r.value.handler;
      && var w := h.gm.queue[0].id;
      && p in h'.gm.playerToGame
      && var room := h'.gm.playerToGame[p];
      && room !in h.gm.games && room in h'.gm.games
      && h'.gm.games[room] == NewGame(p, w, h.gm.names[p], h.gm.names[w], room, env.word1, env.word2)
      && h'.gm.games == h.gm.games[room := h'.gm.games[room]]
      && h'.gm.playerToGame == h.gm.playerToGame[p := room][w := room]
      && h'.gm.roomIdManager.used == h.gm.roomIdManager.used + {room}
      && h'.gm == h.gm.(queue := [], roomIdManager := h'.gm.roomIdManager, games := h'.gm.games,
                        playerToGame := h'.gm.playerToGame)
      && h'.foundGame == h.foundGame + {p}
      && h'.socketToPlayer == h.socketToPlayer
      && r.value.reply == None
      && r.value.sends == Broadcast(h'.gm.games[room])
  {
    if p !in h.foundGame then
      match PairPlayers(h.gm, p, env)
      case Err(_) => Err(NotRegistered)
      case Ok((gm', room)) =>
        if room.Some? && room.value != "" then
          Ok(Step(h.(gm := gm', foundGame := h.foundGame + {p}), None, Broadcast(gm'.games[room.value])))
        else
          Ok(Step(h.(gm := gm'), Some(NotEnoughPlayersMsg(true)), []))
    else
      PlayerRoomExists(h.gm, p);
      var room := h.gm.playerToGame[p];
      if room != "" then
        Ok(Step(h.(foundGame := h.foundGame + {p}), None, Broadcast(h.gm.games[room])))
      else
        Ok(Step(h, Some(NotEnoughPlayersMsg(true)), []))
  }

  /** `MessageHandler.response`. */
  function Response(h: Handler, msg: Message, ws: Socket, env: Env): (r: Result<Step, DispatchError>)
    requires HandlerInv(h)
    ensures r.Ok? ==> HandlerInv(r.value.handler)
    // CREATE from a channel seen before answers with the same id and
    // changes nothing.
    ensures msg.CreateMsg? && ws in h.socketToPlayer ==>
      r == Ok(Step(h, Some(CreationMsg(h.socketToPlayer[ws])), []))
    // CREATE from a new channel registers a fresh id under the given name.
    ensures msg.CreateMsg? && ws !in h.socketToPlayer ==>
      && r.Ok? && r.value.reply.Some? && r.value.reply.value.CreationMsg?
      && var id := r.value.reply.value.playerId;
      && id != "" && id !in h.gm.names
      && r.value.handler.socketToPlayer == h.socketToPlayer[ws := id]
      && r.value.handler.gm.names == h.gm.names[id := msg.playerName]
      && r.value.handler.gm.sockets == h.gm.sockets[id := ws]
      && r.value.handler.gm.playerIdManager.used == h.gm.playerIdManager.used + {id}
      // The queue, the rooms, the pairing and the room ids stay as they are.
      && r.value.handler.gm == h.gm.(sockets := r.value.handler.gm.sockets, names := r.value.handler.gm.names,
                                     playerIdManager := r.value.handler.gm.playerIdManager)
      && r.value.handler == h.(gm := r.value.handler.gm, socketToPlayer := r.value.handler.socketToPlayer)
      && r.value.sends == []
    ensures msg.OtherMsg? ==> r == Err(Unsupported(msg.kind))
    // Every failure leaves nothing behind: `r` carries no state, so the
    // caller keeps `h`.  Every success that is not a CREATE or JOIN leaves
    // the players, the queue and the pairing alone.
    ensures r.Ok? && (msg.GuessMsg? || msg.LetterMsg? || msg.BackspaceMsg?) ==>
      && r.value.handler.socketToPlayer == h.socketToPlayer
      && r.value.handler.foundGame == h.foundGame
      && r.value.handler.gm == h.gm.(games := r.value.handler.gm.games)
      && r.value.handler.gm.games.Keys == h.gm.games.Keys
  {
    match msg
    case CreateMsg(name) =>
      if ws !in h.socketToPlayer then
        var (gm', id) := CreatePlayer(h.gm, name, ws, env.draw);
        Ok(Step(h.(gm := gm', socketToPlayer := h.socketToPlayer[ws := id]), Some(CreationMsg(id)), []))
      else
        Ok(Step(h, Some(CreationMsg(h.socketToPlayer[ws])), []))
    case JoinMsg(p) => Join(h, p, env)
    case GuessMsg(p, room) => MoveInRoom(h, Guess, p, room, "")
    case LetterMsg(p, room, letter) => MoveInRoom(h, Letter, p, room, letter)
    case BackspaceMsg(p, room) => MoveInRoom(h, Backspace, p, room, "")
    case OtherMsg(kind) => Err(Unsupported(kind))
  }

  /** `keep_open`: a channel that never sent CREATE makes the lookup fail; a
      player who found a room keeps the channel open until that room's game
      is over; everybody else keeps it open. */
  function KeepOpen(h: Handler, ws: Socket): (r: Result<bool, DispatchError>)
    requires HandlerInv(h)
    ensures r.Err? <==> ws !in h.socketToPlayer
    ensures r.Ok? ==>
      (!r.value <==>
        var p := h.socketToPlayer[ws];
        p in h.foundGame
        && (PlayerRoomExists(h.gm, p); h.gm.games[h.gm.playerToGame[p]].gameOver))
  {
    if ws !in h.socketToPlayer then Err(UnknownSocket)
    else
      var p := h.socketToPlayer[ws];
      if p in h.foundGame then
        PlayerRoomExists(h.gm, p);
        var room := h.gm.playerToGame[p];
        Ok(!h.gm.games[room].gameOver)
      else
        Ok(true)
  }
}

=== FILE: dispatcher_properties.dfy ===
/** Properties of the message handler over single messages and over whole
    message sequences (backend/game.py:288-360). */
module DispatcherProperties {
  import opened Wrappers
  import opened Protocol
  import opened Game
  import opened GameProperties
  import opened Registry
  import opened Dispatcher

  /** One inbound message together with the channel it came on and the
      outside choices (a uuid draw, the two secret words) it may use. */
  datatype Event = Event(msg: Message, ws: Socket, env: Env)

  /** The handler over a sequence of messages.  A message that fails leaves
      the shared state as it was. */
  function Run(h: Handler, events: seq<Event>): (r: Handler)
    requires HandlerInv(h)
    ensures HandlerInv(r)
    decreases |events|
  {
    if events == [] then h
    else
      var e := events[0];
      match Response(h, e.msg, e.ws, e.env)
      case Ok(step) => Run(step.handler, events[1..])
      case Err(_) => Run(h, events[1..])
  }

  /** What no message takes back: rooms persist with their roster, a game
      that is over stays over, a winner stays the winner, registered players
      and channels keep their ids, and the found-room set only grows. */
  ghost predicate Advances(h: Handler, h': Handler)
  {
    && h.gm.games.Keys <= h'.gm.games.Keys
    && (forall room | room in h.gm.games ::
          && SameRoster(h.gm.games[room], h'.gm.games[room])
          && (h.gm.games[room].gameOver ==> h'.gm.games[room].gameOver)
          && (h.gm.games[room].winner != "" ==> h'.gm.games[room].winner == h.gm.games[room].winner))
    && h.gm.names.Keys <= h'.gm.names.Keys
    && (forall s | s in h.socketToPlayer :: s in h'.socketToPlayer && h'.socketToPlayer[s] == h.socketToPlayer[s])
    && h.foundGame <= h'.foundGame
  }

  /** Only a JOIN adds a player to the found-room set, and only its sender. */
  ghost predicate FoundOnlyBy(h: Handler, h': Handler, msg: Message)
  {
    forall q | q in h'.foundGame && q !in h.foundGame :: msg == JoinMsg(q)
  }

  lemma AdvancesTransitive(h1: Handler, h2: Handler, h3: Handler)
    requires Advances(h1, h2) && Advances(h2, h3)
    ensures Advances(h1, h3)
  {
    forall room | room in h1.gm.games
      ensures SameRoster(h1.gm.games[room], h3.gm.games[room])
    {
      assert room in h2.gm.games;
    }
  }

  /** A handled move changes at most the one game it names, and only as
      far as a move can. */
  lemma MoveAdvances(h: Handler, kind: MessageType, p: PlayerId, room: RoomId, letter: string)
    requires HandlerInv(h)
    ensures var r := MoveInRoom(h, kind, p, room, letter);
      r.Ok? ==> Advances(h, r.value.handler) && r.value.handler.foundGame == h.foundGame
  {
    var r := MoveInRoom(h, kind, p, room, letter);
    if r.Ok? {
      RoomIsValid(h.gm, room);
      var g := h.gm.games[room];
      var g' := UpdateGameState(g, kind, p, letter).value;
      MoveFrame(g, kind, p, letter);
      ReplaceGameAdvances(h, room, g');
    }
  }

  /** Putting a later state of a room in its place advances the handler. */
  lemma ReplaceGameAdvances(h: Handler, room: RoomId, g: Game)
    requires room in h.gm.games
    requires SameRoster(h.gm.games[room], g)
    requires h.gm.games[room].gameOver ==> g.gameOver
    requires h.gm.games[room].winner != "" ==> g.winner == h.gm.games[room].winner
    ensures Advances(h, h.(gm := h.gm.(games := h.gm.games[room := g])))
  {
  }

  lemma CreateAdvances(h: Handler, name: string, ws: Socket, env: Env)
    requires HandlerInv(h)
    ensures var r := Response(h, CreateMsg(name), ws, env);
      r.Ok? ==> Advances(h, r.value.handler) && FoundOnlyBy(h, r.value.handler, CreateMsg(name))
  {
  }

  lemma JoinAdvances(h: Handler, p: PlayerId, env: Env)
    requires HandlerInv(h)
    ensures var r := Dispatcher.Join(h, p, env);
      r.Ok? ==> Advances(h, r.value.handler) && FoundOnlyBy(h, r.value.handler, JoinMsg(p))
  {
    var r := Dispatcher.Join(h, p, env);
    if r.Ok? && p !in h.foundGame {
      var pr := PairPlayers(h.gm, p, env);
      assert r.value.handler.gm == pr.value.0;
    }
  }

  lemma StepAdvances(h: Handler, msg: Message, ws: Socket, env: Env)
    requires HandlerInv(h)
    ensures var r := Response(h, msg, ws, env);
      r.Ok? ==> Advances(h, r.value.handler) && FoundOnlyBy(h, r.value.handler, msg)
  {
    match msg
    case CreateMsg(name) => CreateAdvances(h, name, ws, env);
    case JoinMsg(p) => JoinAdvances(h, p, env);
    case GuessMsg(p, room) => MoveAdvances(h, Guess, p, room, "");
    case LetterMsg(p, room, letter) => MoveAdvances(h, Letter, p, room, letter);
    case BackspaceMsg(p, room) => MoveAdvances(h, Backspace, p, room, "");
    case OtherMsg(_) =>
  }

  /** Over any sequence of messages the handler only advances. */
  lemma {:induction false} RunAdvances(h: Handler, events: seq<Event>)
    requires HandlerInv(h)
    ensures Advances(h, Run(h, events))
    decreases |events|
  {
    if events == [] {
    } else {
      var e := events[0];
      var r := Response(h, e.msg, e.ws, e.env);
      StepAdvances(h, e.msg, e.ws, e.env);
      if r.Ok? {
        RunAdvances(r.value.handler, events[1..]);
        AdvancesTransitive(h, r.value.handler, Run(h, events));
      } else {
        RunAdvances(h, events[1..]);
      }
    }
  }

  /** A player outside the found-room set (the waiting half of every pair)
      keeps its channel open for as long as it sends no JOIN of its own,
      however the game it was paired into ends. */
  lemma {:induction false} WaiterChannelStaysOpen(h: Handler, events: seq<Event>, ws: Socket)
    requires HandlerInv(h)
    requires ws in h.socketToPlayer && h.socketToPlayer[ws] !in h.foundGame
    requires forall i | 0 <= i < |events| :: events[i].msg != JoinMsg(h.socketToPlayer[ws])
    ensures KeepOpen(Run(h, events), ws) == Ok(true)
    decreases |events|
  {
    if events == [] {
    } else {
      var e := events[0];
      var r := Response(h, e.msg, e.ws, e.env);
      StepAdvances(h, e.msg, e.ws, e.env);
      assert e.msg != JoinMsg(h.socketToPlayer[ws]);
      if r.Ok? {
        assert r.value.handler.socketToPlayer[ws] == h.socketToPlayer[ws];
        assert forall i | 0 <= i < |events[1..]| :: events[1..][i] == events[i + 1];
        WaiterChannelStaysOpen(r.value.handler, events[1..], ws);
      } else {
        assert forall i | 0 <= i < |events[1..]| :: events[1..][i] == events[i + 1];
        WaiterChannelStaysOpen(h, events[1..], ws);
      }
    }
  }

  /** CREATE twice on one channel: the same id both times, and the second
      changes nothing. */
  lemma CreateIsIdempotent(h: Handler, ws: Socket, name1: string, name2: string, env1: Env, env2: Env)
    requires HandlerInv(h)
    ensures var r1 := Response(h, CreateMsg(name1), ws, env1);
      && r1.Ok? && r1.value.reply.Some?
      && Response(r1.value.handler, CreateMsg(name2), ws, env2)
         == Ok(Step(r1.value.handler, r1.value.reply, []))
  {
  }

  /** Two registered players JOIN one after the other on an empty queue: the
      first is queued and told so; the second gets a room in which the
      joining player comes first, and both receive its state in that order.
      Only the second is recorded as having found the room. */
  lemma PairingOrder(h: Handler, a: PlayerId, b: PlayerId, env1: Env, env2: Env)
    requires HandlerInv(h)
    requires h.gm.queue == []
    requires a in h.gm.names && b in h.gm.names && a != b
    requires a !in h.foundGame && b !in h.foundGame
    ensures var r1 := Dispatcher.Join(h, a, env1);
      && r1.Ok? && r1.value.reply == Some(NotEnoughPlayersMsg(true)) && r1.value.sends == []
      && var r2 := Dispatcher.Join(r1.value.handler, b, env2);
      && r2.Ok?
      && var h2 := r2.value.handler;
      && b in h2.gm.playerToGame
      && var room := h2.gm.playerToGame[b];
      && room in h2.gm.games
      && h2.gm.games[room].playerIds == [b, a]
      && h2.gm.games[room].secretWords == map[b := env2.word1, a := env2.word2]
      && !h2.gm.games[room].gameOver && h2.gm.games[room].winner == ""
      && h2.gm.games[room].guesses == map[b := "", a := ""]
      && h2.gm.games[room].pastGuesses == map[b := [], a := []]
      && r2.value.sends == [Send(b, GameStateMsg(h2.gm.games[room])), Send(a, GameStateMsg(h2.gm.games[room]))]
      && b in h2.foundGame && a !in h2.foundGame
  {
    var r1 := Dispatcher.Join(h, a, env1);
    var h1 := r1.value.handler;
    assert h1.gm.queue == [QueueEntry(h.gm.names[a], a)];
    var h2 := Dispatcher.Join(h1, b, env2).value.handler;
    var room := h2.gm.playerToGame[b];
    assert |Broadcast(h2.gm.games[room])| == 2;
  }

  /** A queued player who sends JOIN again is paired with itself: the queue
      holds its own entry and it is not yet in the found-room set. */
  lemma JoinTwicePairsWithSelf(h: Handler, p: PlayerId, env1: Env, env2: Env)
    requires HandlerInv(h)
    requires h.gm.queue == [] && p in h.gm.names && p !in h.foundGame
    ensures var r1 := Dispatcher.Join(h, p, env1);
      && r1.Ok?
      && var r2 := Dispatcher.Join(r1.value.handler, p, env2);
      && r2.Ok?
      && var h2 := r2.value.handler;
      && p in h2.gm.playerToGame
      && var room := h2.gm.playerToGame[p];
      && room in h2.gm.games
      && h2.gm.games[room].playerIds == [p, p]
      && r2.value.sends == [Send(p, GameStateMsg(h2.gm.games[room])), Send(p, GameStateMsg(h2.gm.games[room]))]
  {
    var r1 := Dispatcher.Join(h, p, env1);
    var h1 := r1.value.handler;
    assert h1.gm.queue == [QueueEntry(h.gm.names[p], p)];
    var h2 := Dispatcher.Join(h1, p, env2).value.handler;
    var room := h2.gm.playerToGame[p];
    assert |Broadcast(h2.gm.games[room])| == 2;
  }
}

=== FILE: game.dfy ===
/** The per-room Wordle state machine: `Game` of backend/game.py. */
module Game {
  import opened Wrappers
  import opened Protocol

  type PlayerId = string
  type RoomId = string

  const MaxNumGuesses: nat := 6
  const MaxGuessLen: nat := 5

  /** One room's state.  Every per-player map is keyed by the room's player
      ids; `winner` is "" while nobody has won. */
  datatype Game = Game(
    playerNames: map<PlayerId, string>,
    playerIds: seq<PlayerId>,
    roomId: RoomId,
    guesses: map<PlayerId, string>,
    pastGuesses: map<PlayerId, seq<string>>,
    secretWords: map<PlayerId, string>,
    isRight: map<PlayerId, bool>,
    gameOver: bool,
    winner: PlayerId)

  /** The `ValueError`s `update_game_state` raises; a missing player is the
      `KeyError` of a dictionary lookup. */
  datatype MoveError =
    | UnknownPlayer
    | TooManyGuesses
    | IncompleteGuess
    | NotSingleCharacter
    | GuessFull
    | EmptyGuess

  /** The two player slots of a room, as a set (one element when both slots
      hold the same id). */
  ghost function Players(g: Game): set<PlayerId>
    requires |g.playerIds| == 2
  {
    {g.playerIds[0], g.playerIds[1]}
  }

  predicate AnyRight(isRight: map<PlayerId, bool>)
  {
    exists p | p in isRight :: isRight[p]
  }

  predicate AllRight(isRight: map<PlayerId, bool>)
  {
    forall p | p in isRight :: isRight[p]
  }

  /** `min(map(len, past_guesses.values())) == n`. */
  predicate MinLengthIs(pastGuesses: map<PlayerId, seq<string>>, n: nat)
  {
    && (exists p | p in pastGuesses :: |pastGuesses[p]| == n)
    && (forall p | p in pastGuesses :: |pastGuesses[p]| >= n)
  }

  /** Every player has used up all guesses. */
  ghost predicate Exhausted(g: Game)
  {
    forall p | p in g.pastGuesses :: |g.pastGuesses[p]| == MaxNumGuesses
  }

  /** Two states of one room with the same players, names, id and words. */
  ghost predicate SameRoster(g: Game, h: Game)
  {
    && h.playerIds == g.playerIds && h.playerNames == g.playerNames
    && h.roomId == g.roomId && h.secretWords == g.secretWords
  }

  /** The invariant every room keeps: two player slots, all maps keyed by
      them, the length limits, and a winner who guessed right. */
  ghost predicate Valid(g: Game)
  {
    && |g.playerIds| == 2
    && g.playerNames.Keys == Players(g)
    && g.guesses.Keys == Players(g)
    && g.pastGuesses.Keys == Players(g)
    && g.secretWords.Keys == Players(g)
    && g.isRight.Keys == Players(g)
    && (forall p | p in g.guesses :: |g.guesses[p]| <= MaxGuessLen)
    && (forall p | p in g.pastGuesses :: |g.pastGuesses[p]| <= MaxNumGuesses)
    && (g.winner != "" ==> g.winner in g.isRight && g.isRight[g.winner])
    && (AnyRight(g.isRight) ==> g.gameOver)
  }

  /** `Game.__init__` as `create_game` calls it: two players, their names,
      and the two secret words (fetched per player, in player order; with a
      repeated id the second fetch overwrites the first). */
  function NewGame(id1: PlayerId, id2: PlayerId, name1: string, name2: string,
                   roomId: RoomId, word1: string, word2: string): (g: Game)
    ensures Valid(g)
    ensures g.playerIds == [id1, id2] && g.roomId == roomId
    ensures Players(g) == {id1, id2}
    ensures forall p | p in Players(g) ::
      g.guesses[p] == "" && g.pastGuesses[p] == [] && !g.isRight[p]
    ensures g.secretWords[id2] == word2 && (id1 != id2 ==> g.secretWords[id1] == word1)
    ensures g.playerNames[id2] == name2 && (id1 != id2 ==> g.playerNames[id1] == name1)
    ensures !g.gameOver && g.winner == ""
  {
    var g := Game(
      map[id1 := name1][id2 := name2],
      [id1, id2],
      roomId,
      map[id1 := ""][id2 := ""],
      map[id1 := []][id2 := []],
      map[id1 := word1][id2 := word2],
      map[id1 := false][id2 := false],
      false,
      "");
    assert Players(g) == {id1, id2};
    g
  }

  /** With every player holding at most six guesses, the source's "shortest
      history has six entries" test means every history is full. */
  lemma MinLengthIsExhausted(g: Game)
    requires |g.playerIds| == 2 && g.pastGuesses.Keys == Players(g)
    requires forall p | p in g.pastGuesses :: |g.pastGuesses[p]| <= MaxNumGuesses
    ensures MinLengthIs(g.pastGuesses, MaxNumGuesses) <==> Exhausted(g)
  {
    assert g.playerIds[0] in g.pastGuesses;
  }

  /** The first half of `_update_game_state_guess`: record the guess, clear
      the input, mark a correct player and name them winner unless everybody
      is now right. */
  function RecordGuess(g: Game, p: PlayerId, guess: string): (r: Game)
    requires Valid(g) && p in g.guesses
    requires |g.pastGuesses[p]| < MaxNumGuesses
    ensures r.playerIds == g.playerIds && r.playerNames == g.playerNames
    ensures r.roomId == g.roomId && r.secretWords == g.secretWords
    ensures r.gameOver == g.gameOver
    ensures r.guesses == g.guesses[p := ""]
    ensures r.pastGuesses == g.pastGuesses[p := g.pastGuesses[p] + [guess]]
    ensures r.isRight.Keys == g.isRight.Keys
    ensures r.isRight[p] <==> g.isRight[p] || guess == g.secretWords[p]
    ensures forall q | q in g.isRight && q != p :: r.isRight[q] == g.isRight[q]
    ensures r.winner != g.winner ==>
      guess == g.secretWords[p] && r.winner == p && !AllRight(r.isRight)
    ensures g.winner != "" ==> r.winner == g.winner
    ensures guess == g.secretWords[p] && !AllRight(r.isRight) ==> r.winner == p
    ensures r.winner != "" ==> r.winner in r.isRight && r.isRight[r.winner]
  {
    var g1 := g.(guesses := g.guesses[p := ""],
                 pastGuesses := g.pastGuesses[p := g.pastGuesses[p] + [guess]]);
    var r :=
      if guess == g.secretWords[p] then
        var right := g1.isRight[p := true];
        g1.(isRight := right, winner := if !AllRight(right) then p else g1.winner)
      else g1;
    WinnerStaysPut(g, r.isRight, r.winner, p);
    r
  }

  /** `_update_game_state_guess`: record the guess, then end the game when
      someone is right or everybody is out of guesses.  The flag is only
      ever raised. */
  function ApplyGuess(g: Game, p: PlayerId, guess: string): (r: Game)
    requires Valid(g) && p in g.guesses
    requires |g.pastGuesses[p]| < MaxNumGuesses
    ensures Valid(r)
    ensures r == RecordGuess(g, p, guess).(gameOver := r.gameOver)
    ensures r.gameOver <==> g.gameOver || AnyRight(r.isRight) || Exhausted(r)
  {
    var g2 := RecordGuess(g, p, guess);
    assert Players(g2) == Players(g);
    MinLengthIsExhausted(g2);
    if MinLengthIs(g2.pastGuesses, MaxNumGuesses) || AnyRight(g2.isRight) then
      g2.(gameOver := true)
    else
      g2
  }

  /** With at most two players, once one of them has won, the other cannot
      take over: whoever guesses right next makes everybody right. */
  lemma WinnerStaysPut(g: Game, right: map<PlayerId, bool>, winner: PlayerId, p: PlayerId)
    requires Valid(g) && p in g.isRight
    requires right.Keys == g.isRight.Keys
    requires forall q | q in right :: g.isRight[q] ==> right[q]
    requires winner == g.winner || (winner == p && right[p] && !AllRight(right))
    ensures g.winner != "" ==> winner == g.winner
  {
    assert Players(g) == {g.playerIds[0], g.playerIds[1]};
  }

  /** GUESS in `update_game_state`: refused once six guesses are recorded or
      unless the input holds exactly five characters; otherwise the input
      moves into the history. */
  function GuessMove(g: Game, p: PlayerId): (r: Result<Game, MoveError>)
    requires Valid(g)
    ensures r.Ok? ==> Valid(r.value) && SameRoster(g, r.value)
    ensures r.Err? <==> p !in Players(g)
                        || |g.pastGuesses[p]| >= MaxNumGuesses
                        || |g.guesses[p]| != MaxGuessLen
    ensures r.Ok? ==>
      && r.value.guesses == g.guesses[p := ""]
      && r.value.pastGuesses == g.pastGuesses[p := g.pastGuesses[p] + [g.guesses[p]]]
      && |r.value.pastGuesses[p]| == |g.pastGuesses[p]| + 1
  {
    if p !in g.pastGuesses then Err(UnknownPlayer)
    else if |g.pastGuesses[p]| >= MaxNumGuesses then Err(TooManyGuesses)
    else
      var guess := g.guesses[p];
      if |guess| != MaxGuessLen then Err(IncompleteGuess)
      else Ok(ApplyGuess(g, p, guess))
  }

  /** LETTER in `update_game_state`: the letter must be one character (of any
      kind: case is not checked) and the input must have room; then it is
      appended and nothing else changes. */
  function LetterMove(g: Game, p: PlayerId, letter: string): (r: Result<Game, MoveError>)
    requires Valid(g)
    ensures r.Ok? ==> Valid(r.value) && SameRoster(g, r.value)
    ensures r.Err? <==> |letter| != 1 || p !in Players(g) || |g.guesses[p]| >= MaxGuessLen
    ensures |letter| != 1 ==> r == Err(NotSingleCharacter)
    ensures r.Ok? ==>
      && r.value == g.(guesses := r.value.guesses)
      && r.value.guesses == g.guesses[p := g.guesses[p] + letter]
      && |r.value.guesses[p]| == |g.guesses[p]| + 1 <= MaxGuessLen
  {
    if |letter| != 1 then Err(NotSingleCharacter)
    else if p !in g.guesses then Err(UnknownPlayer)
    else if |g.guesses[p]| >= MaxGuessLen then Err(GuessFull)
    else
      EditKeepsValid(g, p, g.guesses[p] + letter);
      Ok(g.(guesses := g.guesses[p := g.guesses[p] + letter]))
  }

  /** Replacing one player's input by one within the length limit keeps a
      room valid. */
  lemma EditKeepsValid(g: Game, p: PlayerId, input: string)
    requires Valid(g) && p in g.guesses && |input| <= MaxGuessLen
    ensures Valid(g.(guesses := g.guesses[p := input]))
  {
    var h := g.(guesses := g.guesses[p := input]);
    assert Players(h) == Players(g);
  }

  /** BACKSPACE in `update_game_state`: refused on an empty input; otherwise
      exactly the last character goes and nothing else changes. */
  function BackspaceMove(g: Game, p: PlayerId): (r: Result<Game, MoveError>)
    requires Valid(g)
    ensures r.Ok? ==> Valid(r.value) && SameRoster(g, r.value)
    ensures r.Err? <==> p !in Players(g) || g.guesses[p] == ""
    ensures r.Ok? ==>
      && r.value == g.(guesses := r.value.guesses)
      && r.value.guesses == g.guesses[p := r.value.guesses[p]]
      && g.guesses[p] == r.value.guesses[p] + [g.guesses[p][|g.guesses[p]| - 1]]
  {
    if p !in g.guesses then Err(UnknownPlayer)
    else if |g.guesses[p]| == 0 then Err(EmptyGuess)
    else
      var input := g.guesses[p][..|g.guesses[p]| - 1];
      EditKeepsValid(g, p, input);
      Ok(g.(guesses := g.guesses[p := input]))
  }

  /** `update_game_state`: validate, then apply.  Every check runs before any
      change, so an error leaves the room as it was; kinds other than the
      three moves are accepted and change nothing.  The game-over flag is
      never consulted. */
  function UpdateGameState(g: Game, kind: MessageType, p: PlayerId, letter: string)
    : (r: Result<Game, MoveError>)
    requires Valid(g)
    ensures r.Ok? ==> Valid(r.value) && SameRoster(g, r.value)
    ensures kind !in {Guess, Letter, Backspace} ==> r == Ok(g)
  {
    match kind
    case Guess => GuessMove(g, p)
    case Letter => LetterMove(g, p, letter)
    case Backspace => BackspaceMove(g, p)
    case _ => Ok(g)
  }
}

=== FILE: game_properties.dfy ===
/** Properties of the room state machine over single moves and over whole
    move sequences (backend/game.py:115-183). */
module GameProperties {
  import opened Wrappers
  import opened Protocol
  import opened Game

  /** An accepted move touches only the acting player's entries and the
      room-wide game-over flag and winner. */
  ghost predicate OnlyActorChanged(g: Game, h: Game, p: PlayerId)
  {
    && SameRoster(g, h)
    && h.guesses.Keys == g.guesses.Keys
    && h.pastGuesses.Keys == g.pastGuesses.Keys
    && h.isRight.Keys == g.isRight.Keys
    && (forall q | q in g.guesses && q != p :: h.guesses[q] == g.guesses[q])
    && (forall q | q in g.pastGuesses && q != p :: h.pastGuesses[q] == g.pastGuesses[q])
    && (forall q | q in g.isRight && q != p :: h.isRight[q] == g.isRight[q])
  }

  /** The room-wide outcome only moves forward: game over stays over, a
      winner stays the winner, and a new winner is the acting player after a
      correct guess. */
  ghost predicate OutcomeAdvances(g: Game, h: Game, p: PlayerId)
  {
    && (g.gameOver ==> h.gameOver)
    && (g.winner != "" ==> h.winner == g.winner)
    && (h.winner != g.winner ==> h.winner == p && p in h.isRight && h.isRight[p])
  }

  lemma MoveFrame(g: Game, kind: MessageType, p: PlayerId, letter: string)
    requires Valid(g)
    ensures var r := UpdateGameState(g, kind, p, letter);
      r.Ok? ==> OnlyActorChanged(g, r.value, p) && OutcomeAdvances(g, r.value, p)
  {
    if kind == Guess {
      GuessFrame(g, p);
    } else if kind == Letter {
      LetterFrame(g, p, letter);
    } else if kind == Backspace {
      BackspaceFrame(g, p);
    }
  }

  lemma LetterFrame(g: Game, p: PlayerId, letter: string)
    requires Valid(g)
    ensures var r := LetterMove(g, p, letter);
      r.Ok? ==> OnlyActorChanged(g, r.value, p) && OutcomeAdvances(g, r.value, p)
  {
    var r := LetterMove(g, p, letter);
    if r.Ok? { UnchangedOutcome(g, r.value, p); }
  }

  lemma BackspaceFrame(g: Game, p: PlayerId)
    requires Valid(g)
    ensures var r := BackspaceMove(g, p);
      r.Ok? ==> OnlyActorChanged(g, r.value, p) && OutcomeAdvances(g, r.value, p)
  {
    var r := BackspaceMove(g, p);
    if r.Ok? { UnchangedOutcome(g, r.value, p); }
  }

  /** A move that only edits the acting player's input. */
  lemma UnchangedOutcome(g: Game, h: Game, p: PlayerId)
    requires h == g.(guesses := h.guesses)
    requires h.guesses.Keys == g.guesses.Keys
    requires forall q | q in g.guesses && q != p :: h.guesses[q] == g.guesses[q]
    ensures OnlyActorChanged(g, h, p) && OutcomeAdvances(g, h, p)
  {
  }

  lemma GuessFrame(g: Game, p: PlayerId)
    requires Valid(g)
    ensures var r := GuessMove(g, p);
      r.Ok? ==> OnlyActorChanged(g, r.value, p) && OutcomeAdvances(g, r.value, p)
  {
    var r := GuessMove(g, p);
    if r.Ok? {
      var g1 := RecordGuess(g, p, g.guesses[p]);
      assert r.value == g1.(gameOver := r.value.gameOver);
    }
  }

  /** The game-over rule of `ApplyGuess`, restated for a GUESS message as
      `GuessMove` handles it: afterwards the game is over exactly when it
      already was, or some player is right, or every player has six
      guesses. */
  lemma GuessDecidesGameOver(g: Game, p: PlayerId)
    requires Valid(g)
    ensures var r := GuessMove(g, p);
      r.Ok? ==> (r.value.gameOver <==> g.gameOver || AnyRight(r.value.isRight) || Exhausted(r.value))
  {
  }

  /** A correct guess while the opponent is not right names the guesser
      winner and ends the game. */
  lemma CorrectGuessWins(g: Game, p: PlayerId, other: PlayerId)
    requires Valid(g) && p in Players(g) && other in Players(g) && other != p
    requires |g.pastGuesses[p]| < MaxNumGuesses && |g.guesses[p]| == MaxGuessLen
    requires g.guesses[p] == g.secretWords[p]
    requires !g.isRight[other]
    ensures var r := GuessMove(g, p);
      r.Ok? && r.value.gameOver && r.value.isRight[p] && r.value.winner == p
  {
    var g1 := RecordGuess(g, p, g.guesses[p]);
    assert !g1.isRight[other];
    assert !AllRight(g1.isRight);
    assert GuessMove(g, p) == Ok(ApplyGuess(g, p, g.guesses[p]));
  }

  /** A room whose two slots hold the same player (see `PairPlayers`) never
      gets a winner: that player's correct guess makes everybody right. */
  lemma SelfRoomHasNoWinner(g: Game, p: PlayerId)
    requires Valid(g) && g.playerIds[0] == g.playerIds[1] && g.winner == ""
    ensures var r := GuessMove(g, p);
      r.Ok? ==> r.value.winner == ""
  {
    var r := GuessMove(g, p);
    if r.Ok? {
      assert Players(g) == {g.playerIds[0]};
      var g1 := RecordGuess(g, p, g.guesses[p]);
      assert g1.isRight.Keys == {p};
      assert r.value.winner == g1.winner;
    }
  }

  /** The flag is not consulted: a move is still accepted after the game
      has ended. */
  lemma MovesContinueAfterGameOver(g: Game, p: PlayerId)
    requires Valid(g) && g.gameOver && p in Players(g) && |g.guesses[p]| < MaxGuessLen
    ensures UpdateGameState(g, Letter, p, "q").Ok?
  {
  }

  /** The letter is not checked for case or alphabet: any one character goes. */
  lemma AnyCharacterIsALetter(g: Game, p: PlayerId, c: char)
    requires Valid(g) && p in Players(g) && |g.guesses[p]| < MaxGuessLen
    ensures UpdateGameState(g, Letter, p, [c]).Ok?
  {
  }

  /** One move of a replayed sequence: who acts, which kind, which letter. */
  datatype Move = Move(kind: MessageType, player: PlayerId, letter: string)

  /** Applying moves in order, where a refused move changes nothing (the
      server reports the error and keeps the room as it was). */
  function Replay(g: Game, moves: seq<Move>): Game
    requires Valid(g)
    decreases |moves|
  {
    if moves == [] then g
    else
      var m := moves[0];
      var next := match UpdateGameState(g, m.kind, m.player, m.letter)
        case Ok(h) => h
        case Err(_) => g;
      Replay(next, moves[1..])
  }

  /** Over any sequence of moves every input stays within five characters,
      every history within six guesses, a finished game stays finished and
      a winner, once named, is never replaced. */
  lemma {:induction false} ReplayKeepsOutcome(g: Game, moves: seq<Move>)
    requires Valid(g)
    ensures var r := Replay(g, moves);
      && Valid(r) && SameRoster(g, r)
      && (forall p | p in r.guesses :: |r.guesses[p]| <= MaxGuessLen)
      && (forall p | p in r.pastGuesses :: |r.pastGuesses[p]| <= MaxNumGuesses)
      && (g.gameOver ==> r.gameOver)
      && (g.winner != "" ==> r.winner == g.winner)
    decreases |moves|
  {
    if moves != [] {
      var m := moves[0];
      MoveFrame(g, m.kind, m.player, m.letter);
      var next := match UpdateGameState(g, m.kind, m.player, m.letter)
        case Ok(h) => h
        case Err(_) => g;
      ReplayKeepsOutcome(next, moves[1..]);
    }
  }

  lemma ReplayStep(g: Game, moves: seq<Move>, k: nat, h: Game)
    requires Valid(g) && k < |moves|
    requires UpdateGameState(g, moves[k].kind, moves[k].player, moves[k].letter) == Ok(h)
    ensures Replay(g, moves[k..]) == Replay(h, moves[k + 1..])
  {
    assert moves[k..][1..] == moves[k + 1..];
  }

  /** One LETTER move per character of `w`. */
  function LetterMoves(p: PlayerId, w: string): (r: seq<Move>)
    ensures |r| == |w|
  {
    if w == [] then [] else [Move(Letter, p, [w[0]])] + LetterMoves(p, w[1..])
  }

  /** The room after `w` has been appended to a player's input. */
  function Typed(g: Game, p: PlayerId, w: string): Game
    requires p in g.guesses
  {
    g.(guesses := g.guesses[p := g.guesses[p] + w])
  }

  lemma TypedTwice(g: Game, p: PlayerId, u: string, v: string)
    requires p in g.guesses
    ensures Typed(Typed(g, p, u), p, v) == Typed(g, p, u + v)
  {
    assert g.guesses[p] + u + v == g.guesses[p] + (u + v);
    assert g.guesses[p := g.guesses[p] + u][p := g.guesses[p] + u + v]
        == g.guesses[p := g.guesses[p] + (u + v)];
  }

  /** Replaying the letters of `w` into a player's input that has room for
      them spells `w` after what was there, and changes nothing else. */
  lemma {:induction false} TypingAppends(g: Game, p: PlayerId, w: string, rest: seq<Move>)
    requires Valid(g) && p in Players(g) && |g.guesses[p]| + |w| <= MaxGuessLen
    ensures Replay(g, LetterMoves(p, w) + rest) == Replay(Typed(g, p, w), rest)
    decreases |w|
  {
    if w == [] {
      NothingTyped(g, p, rest);
    } else {
      var g1 := Typed(g, p, [w[0]]);
      OneLetter(g, p, w[0]);
      FirstLetter(g, p, w, rest, g1);
      TypedHead(g, p, w);
      TypingAppends(g1, p, w[1..], rest);
    }
  }

  lemma NothingTyped(g: Game, p: PlayerId, rest: seq<Move>)
    requires p in g.guesses
    ensures Typed(g, p, "") == g && LetterMoves(p, "") + rest == rest
  {
    assert g.guesses[p] + "" == g.guesses[p];
  }

  lemma TypedHead(g: Game, p: PlayerId, w: string)
    requires p in g.guesses && w != []
    ensures Typed(Typed(g, p, [w[0]]), p, w[1..]) == Typed(g, p, w)
  {
    TypedTwice(g, p, [w[0]], w[1..]);
    assert [w[0]] + w[1..] == w;
  }

  /** One LETTER into an input with room is accepted and appends it. */
  lemma OneLetter(g: Game, p: PlayerId, c: char)
    requires Valid(g) && p in Players(g) && |g.guesses[p]| < MaxGuessLen
    ensures UpdateGameState(g, Letter, p, [c]) == Ok(Typed(g, p, [c]))
    ensures var g1 := Typed(g, p, [c]);
      Valid(g1) && p in Players(g1) && |g1.guesses[p]| == |g.guesses[p]| + 1
  {
    assert Players(Typed(g, p, [c])) == Players(g);
  }

  lemma FirstLetter(g: Game, p: PlayerId, w: string, rest: seq<Move>, g1: Game)
    requires Valid(g) && w != []
    requires UpdateGameState(g, Letter, p, [w[0]]) == Ok(g1)
    ensures Replay(g, LetterMoves(p, w) + rest) == Replay(g1, LetterMoves(p, w[1..]) + rest)
  {
    var m := Move(Letter, p, [w[0]]);
    var tail := LetterMoves(p, w[1..]);
    LetterMovesCons(p, w);
    ConsAppend(m, tail, rest);
    ReplayHead(g, m, tail + rest, g1);
  }

  lemma LetterMovesCons(p: PlayerId, w: string)
    requires w != []
    ensures LetterMoves(p, w) == [Move(Letter, p, [w[0]])] + LetterMoves(p, w[1..])
  {
  }

  lemma ConsAppend(m: Move, tail: seq<Move>, rest: seq<Move>)
    ensures ([m] + tail) + rest == [m] + (tail + rest)
  {
  }

  lemma ReplayHead(g: Game, m: Move, rest: seq<Move>, h: Game)
    requires Valid(g)
    requires UpdateGameState(g, m.kind, m.player, m.letter) == Ok(h)
    ensures Replay(g, [m] + rest) == Replay(h, rest)
  {
    assert ([m] + rest)[1..] == rest;
  }

  /** Appending keeps a room valid while the input stays within five. */
  lemma TypedValid(g: Game, p: PlayerId, w: string)
    requires Valid(g) && p in Players(g) && |g.guesses[p]| + |w| <= MaxGuessLen
    ensures Valid(Typed(g, p, w))
  {
  }

  /** The "crane" example: a player types c, r, a, n, e and guesses their own
      secret while the opponent has not won; the room ends with them as
      winner. */
  lemma CraneScenario(a: PlayerId, b: PlayerId, bWord: string)
    requires a != b
    ensures var g0 := NewGame(a, b, "alice", "bob", "room", "crane", bWord);
      var r := Replay(g0, LetterMoves(a, "crane") + [Move(Guess, a, "")]);
      && a in r.pastGuesses && r.pastGuesses[a] == ["crane"]
      && a in r.isRight && r.isRight[a]
      && r.winner == a && r.gameOver
  {
    var g0 := NewGame(a, b, "alice", "bob", "room", "crane", bWord);
    TypingAppends(g0, a, "crane", [Move(Guess, a, "")]);
    TypedValid(g0, a, "crane");
    var g5 := Typed(g0, a, "crane");
    assert g5.guesses[a] == "crane";
    CorrectGuessWins(g5, a, b);
    var g6 := GuessMove(g5, a).value;
    ReplayStep(g5, [Move(Guess, a, "")], 0, g6);
    assert [Move(Guess, a, "")][0..] == [Move(Guess, a, "")];
    assert Replay(g6, []) == g6;
  }
}

=== FILE: grid.dfy ===
/** The board of one player (webpage/src/view/Grid.tsx): six rows of five
    boxes, each showing a letter of a submitted guess or of the guess being
    typed, coloured against the player's secret word.  The mouse-over
    shading only lightens a colour and is not modelled. */
module Grid {
  const Width: nat := 5
  const Height: nat := 6

  /** The background of a box: right letter in the right place, right letter
      elsewhere, wrong letter, or a row not yet submitted. */
  datatype Colour = Green | Yellow | Red | Blank

  /** What a box shows: a one-character text or "", and its colour. */
  datatype Cell = Cell(letter: string, colour: Colour)

  /** JavaScript's `String.prototype.includes`: `part` occurs somewhere in
      `whole`; the empty text occurs in every text. */
  predicate Includes(whole: string, part: string)
  {
    exists i | 0 <= i <= |whole| :: OccursAt(whole, part, i)
  }

  predicate OccursAt(whole: string, part: string, i: int)
  {
    0 <= i <= |whole| - |part| && whole[i..i + |part|] == part
  }

  lemma IncludesEmpty(whole: string)
    ensures Includes(whole, "")
  {
    assert OccursAt(whole, "", 0);
  }

  lemma IncludesChar(whole: string, c: char)
    ensures Includes(whole, [c]) <==> c in whole
  {
    if c in whole {
      var i :| 0 <= i < |whole| && whole[i] == c;
      assert OccursAt(whole, [c], i);
    }
    if Includes(whole, [c]) {
      var i :| 0 <= i <= |whole| && OccursAt(whole, [c], i);
      assert whole[i..i + 1] == [c];
      assert whole[i] == c;
    }
  }

  /** The letter a box shows: from the submitted guess of its row, or from
      the guess being typed when its row is the next one, or nothing. */
  function BoxLetter(row: nat, col: nat, pastGuesses: seq<string>, guess: string): (r: string)
    ensures |r| <= 1
    ensures row < |pastGuesses| && col < |pastGuesses[row]| ==> r == [pastGuesses[row][col]]
    ensures row == |pastGuesses| && col < |guess| ==> r == [guess[col]]
    ensures r != "" <==>
      (row < |pastGuesses| && col < |pastGuesses[row]|) || (row == |pastGuesses| && col < |guess|)
  {
    if row < |pastGuesses| && col < |pastGuesses[row]| then [pastGuesses[row][col]]
    else if row == |pastGuesses| && col < |guess| then [guess[col]]
    else ""
  }

  /** `Box` of Grid.tsx without the mouse-over shading. */
  function Box(row: nat, col: nat, pastGuesses: seq<string>, guess: string, secret: string): (c: Cell)
    ensures c.letter == BoxLetter(row, col, pastGuesses, guess)
    ensures c.colour == Blank <==> row >= |pastGuesses|
    ensures c.colour == Green <==>
      row < |pastGuesses| && col < |secret| && c.letter == [secret[col]]
    ensures c.colour == Yellow <==>
      && row < |pastGuesses| && col < |secret| && c.letter != [secret[col]]
      && (c.letter == "" || c.letter[0] in secret)
  {
    var letter := BoxLetter(row, col, pastGuesses, guess);
    var alreadyGuessed := row < |pastGuesses|;
    var indexValid := alreadyGuessed && col < |secret|;
    var rightLetterAndSpace := indexValid && letter == [secret[col]];
    var rightLetter := rightLetterAndSpace || (indexValid && Includes(secret, letter));
    var colour :=
      if alreadyGuessed then
        if rightLetterAndSpace then Green
        else if rightLetter then Yellow
        else Red
      else Blank;
    assert Includes(secret, letter) <==> letter == "" || letter[0] in secret by {
      if letter == "" { IncludesEmpty(secret); } else { IncludesChar(secret, letter[0]); assert letter == [letter[0]]; }
    }
    Cell(letter, colour)
  }

  /** `Grid`: `Height` rows of `Width` boxes, row `i` column `j` holding the
      box for that position. */
  method BuildGrid(pastGuesses: seq<string>, guess: string, secret: string)
    returns (rows: seq<seq<Cell>>)
    ensures |rows| == Height
    ensures forall i | 0 <= i < Height :: |rows[i]| == Width
    ensures forall i, j | 0 <= i < Height && 0 <= j < Width ::
      rows[i][j] == Box(i, j, pastGuesses, guess, secret)
  {
    rows := [];
    var i := 0;
    while i < Height
      invariant 0 <= i <= Height
      invariant |rows| == i
      invariant forall k | 0 <= k < i :: |rows[k]| == Width
      invariant forall k, j | 0 <= k < i && 0 <= j < Width ::
        rows[k][j] == Box(k, j, pastGuesses, guess, secret)
    {
      var row: seq<Cell> := [];
      var j := 0;
      while j < Width
        invariant 0 <= j <= Width
        invariant |row| == j
        invariant forall l | 0 <= l < j :: row[l] == Box(i, l, pastGuesses, guess, secret)
      {
        row := row + [Box(i, j, pastGuesses, guess, secret)];
        j := j + 1;
      }
      rows := rows + [row];
      i := i + 1;
    }
  }

  /** The text a row of boxes spells. */
  function Spelled(cells: seq<Cell>): string
  {
    if cells == [] then "" else cells[0].letter + Spelled(cells[1..])
  }

  /** The boxes of row `row` from column `from` on. */
  function RowFrom(row: nat, from: nat, pastGuesses: seq<string>, guess: string, secret: string): seq<Cell>
    requires from <= Width
    decreases Width - from
  {
    if from == Width then []
    else [Box(row, from, pastGuesses, guess, secret)] + RowFrom(row, from + 1, pastGuesses, guess, secret)
  }

  /** Row `row` of the grid, left to right: box `j` is column `j`'s box. */
  function Row(row: nat, pastGuesses: seq<string>, guess: string, secret: string): (r: seq<Cell>)
    ensures |r| == Width
    ensures forall j | 0 <= j < Width :: r[j] == Box(row, j, pastGuesses, guess, secret)
  {
    RowFromCells(row, 0, pastGuesses, guess, secret);
    RowFrom(row, 0, pastGuesses, guess, secret)
  }

  /** From column `from` on, the boxes are those of the remaining columns,
      in order. */
  lemma {:induction false} RowFromCells(row: nat, from: nat, pastGuesses: seq<string>, guess: string, secret: string)
    requires from <= Width
    ensures |RowFrom(row, from, pastGuesses, guess, secret)| == Width - from
    ensures forall j | from <= j < Width ::
      RowFrom(row, from, pastGuesses, guess, secret)[j - from] == Box(row, j, pastGuesses, guess, secret)
    decreases Width - from
  {
    if from < Width {
      RowFromCells(row, from + 1, pastGuesses, guess, secret);
      var head := Box(row, from, pastGuesses, guess, secret);
      var rest := RowFrom(row, from + 1, pastGuesses, guess, secret);
      var all := RowFrom(row, from, pastGuesses, guess, secret);
      assert all == [head] + rest;
      forall j | from < j < Width
        ensures all[j - from] == Box(row, j, pastGuesses, guess, secret)
      {
        assert all[j - from] == rest[j - (from + 1)];
      }
    }
  }

  /** The text row `row` shows: its submitted guess, or the guess being
      typed for the row after the last submitted one. */
  function Shown(row: nat, pastGuesses: seq<string>, guess: string): string
    requires row <= |pastGuesses|
  {
    if row < |pastGuesses| then pastGuesses[row] else guess
  }

  /** From column `from` on, a row spells the rest of the text it shows. */
  lemma {:induction false} RowFromSpells(row: nat, from: nat, pastGuesses: seq<string>, guess: string, secret: string)
    requires from <= Width && row <= |pastGuesses| && |Shown(row, pastGuesses, guess)| <= Width
    ensures var w := Shown(row, pastGuesses, guess);
      Spelled(RowFrom(row, from, pastGuesses, guess, secret)) == if from < |w| then w[from..] else ""
    decreases Width - from
  {
    if from < Width {
      var w := Shown(row, pastGuesses, guess);
      RowFromSpells(row, from + 1, pastGuesses, guess, secret);
      var head := Box(row, from, pastGuesses, guess, secret);
      var rest := RowFrom(row, from + 1, pastGuesses, guess, secret);
      HeadLetter(row, from, pastGuesses, guess, secret);
      assert RowFrom(row, from, pastGuesses, guess, secret) == [head] + rest;
      SpelledCons(head, rest);
      SuffixSplit(w, from);
    }
  }

  lemma HeadLetter(row: nat, col: nat, pastGuesses: seq<string>, guess: string, secret: string)
    requires row <= |pastGuesses|
    ensures var w := Shown(row, pastGuesses, guess);
      Box(row, col, pastGuesses, guess, secret).letter == if col < |w| then [w[col]] else ""
  {
  }

  lemma SuffixSplit(w: string, from: nat)
    ensures (if from < |w| then w[from..] else "") ==
      (if from < |w| then [w[from]] else "") + (if from + 1 < |w| then w[from + 1..] else "")
  {
    if from < |w| {
      assert w[from..] == [w[from]] + w[from + 1..];
    }
  }

  lemma SpelledCons(c: Cell, rest: seq<Cell>)
    ensures Spelled([c] + rest) == c.letter + Spelled(rest)
  {
    assert ([c] + rest)[1..] == rest;
  }

  /** A submitted row spells its guess, and the row after the last
      submitted one spells the guess being typed, when they fit the width. */
  lemma RowSpellsGuess(row: nat, pastGuesses: seq<string>, guess: string, secret: string)
    requires row <= |pastGuesses|
    requires row < |pastGuesses| ==> |pastGuesses[row]| <= Width
    requires row == |pastGuesses| ==> |guess| <= Width
    ensures Spelled(Row(row, pastGuesses, guess, secret)) ==
      if row < |pastGuesses| then pastGuesses[row] else guess
  {
    var w := Shown(row, pastGuesses, guess);
    RowFromSpells(row, 0, pastGuesses, guess, secret);
    assert w[0..] == w;
  }

  /** A row below the one being typed shows nothing. */
  lemma LaterRowsEmpty(row: nat, col: nat, pastGuesses: seq<string>, guess: string, secret: string)
    requires row > |pastGuesses|
    ensures Box(row, col, pastGuesses, guess, secret) == Cell("", Blank)
  {
  }

  /** A submitted five-letter guess against a five-letter word shows five
      green boxes exactly when it is the word. */
  lemma AllGreenIffCorrect(row: nat, pastGuesses: seq<string>, guess: string, secret: string)
    requires row < |pastGuesses| && |pastGuesses[row]| == Width && |secret| == Width
    ensures (forall col: nat | col < Width :: Box(row, col, pastGuesses, guess, secret).colour == Green)
      <==> pastGuesses[row] == secret
  {
    var w := pastGuesses[row];
    if forall col: nat | col < Width :: Box(row, col, pastGuesses, guess, secret).colour == Green {
      forall col: nat | col < Width
        ensures w[col] == secret[col]
      {
        assert Box(row, col, pastGuesses, guess, secret).colour == Green;
      }
    }
  }

  /** A submitted guess shorter than the word leaves boxes with no letter
      that are still coloured yellow: the empty text is "included" in the
      word. */
  lemma ShortGuessShowsEmptyYellow(row: nat, col: nat, pastGuesses: seq<string>, guess: string, secret: string)
    requires row < |pastGuesses| && |pastGuesses[row]| <= col < |secret|
    ensures Box(row, col, pastGuesses, guess, secret) == Cell("", Yellow)
  {
    IncludesEmpty(secret);
  }
}

=== FILE: ids.dfy ===
/** Identifier issuing: `IdManager` of backend/game.py.

    The source draws `uuid4()` strings and redraws while the draw is already
    in `used_ids`.  Here the draw is a parameter; when it collides (or is the
    empty string, which a uuid never is) the model falls back to a fixed
    unused candidate, so freshness is proved rather than taken on trust. */
module Ids {

  /** The memory of every identifier handed out so far. */
  datatype IdManager = IdManager(used: set<string>)

  const EmptyManager := IdManager({})

  /** The k-th fallback candidate; candidates differ in length, hence pairwise. */
  function Candidate(k: nat): (c: string)
    ensures |c| == k + 1
  {
    seq(k + 1, _ => 'x')
  }

  ghost function Candidates(n: nat): set<string>
  {
    set k | 0 <= k < n :: Candidate(k)
  }

  lemma {:induction false} CandidatesSize(n: nat)
    ensures |Candidates(n)| == n
  {
    if n > 0 {
      CandidatesSize(n - 1);
      assert Candidates(n) == Candidates(n - 1) + {Candidate(n - 1)};
      assert Candidate(n - 1) !in Candidates(n - 1) by {
        forall k | 0 <= k < n - 1
          ensures Candidate(k) != Candidate(n - 1)
        {
          assert |Candidate(k)| != |Candidate(n - 1)|;
        }
      }
    }
  }

  lemma SubsetSize(a: set<string>, b: set<string>)
    requires a <= b
    ensures |a| <= |b|
  {
    assert b == a + (b - a);
  }

  /** The first candidate, from index k on, that is not in `used`: by
      pigeonhole there is one among the first |used| + 1. */
  function FirstUnused(used: set<string>, k: nat): (c: string)
    requires Candidates(k) <= used
    ensures c !in used
    ensures c != ""
    decreases |used| - k
  {
    if Candidate(k) !in used then Candidate(k)
    else
      assert Candidates(k + 1) == Candidates(k) + {Candidate(k)};
      CandidatesSize(k + 1);
      SubsetSize(Candidates(k + 1), used);
      FirstUnused(used, k + 1)
  }

  /** `generate_id`: a non-empty identifier never issued before, which is then
      remembered.  A fresh draw is taken as it is. */
  function GenerateId(m: IdManager, draw: string): (r: (string, IdManager))
    ensures r.0 !in m.used && r.0 != ""
    ensures r.1.used == m.used + {r.0}
    ensures draw != "" && draw !in m.used ==> r.0 == draw
  {
    assert Candidates(0) == {};
    var id := if draw != "" && draw !in m.used then draw else FirstUnused(m.used, 0);
    (id, IdManager(m.used + {id}))
  }

  /** Issuing one identifier per draw, in order. */
  function GenerateMany(m: IdManager, draws: seq<string>): (r: (seq<string>, IdManager))
    ensures |r.0| == |draws|
    decreases |draws|
  {
    if draws == [] then ([], m)
    else
      var (id, m') := GenerateId(m, draws[0]);
      var (rest, m'') := GenerateMany(m', draws[1..]);
      ([id] + rest, m'')
  }

  /** Identifiers are never reissued: a run of draws yields pairwise distinct
      identifiers, none of them issued before, all remembered afterwards. */
  lemma {:induction false} GenerateManyFresh(m: IdManager, draws: seq<string>)
    ensures var (ids, m') := GenerateMany(m, draws);
      && (forall i | 0 <= i < |ids| :: ids[i] !in m.used && ids[i] in m'.used)
      && (forall i, j | 0 <= i < j < |ids| :: ids[i] != ids[j])
      && m.used <= m'.used
    decreases |draws|
  {
    if draws != [] {
      var (id, m1) := GenerateId(m, draws[0]);
      GenerateManyFresh(m1, draws[1..]);
    }
  }
}

=== FILE: keyhandler.dfy ===
/** The keyboard controller of the web client
    (webpage/src/controller/KeyHandler.tsx): a key press becomes at most one
    request to the server, depending on whether the player has a name and a
    match and on the guess typed so far. */
module KeyHandler {
  import opened Wrappers

  const BackspaceName := "backspace"
  const EnterName := "enter"
  const MaxGuessLength: nat := 5
  const MinGuessLen: nat := 1
  const KeyLength: nat := 1

  /** The request a key press triggers: `backspaceLetter`, `guessWord` or
      `guessLetter` of the client state. */
  datatype KeyAction = BackspaceKey | GuessKey | LetterKey(letter: string)

  /** `toLowerCase` on one character, for the ASCII range. */
  function LowerChar(c: char): (r: char)
    ensures 'A' <= c <= 'Z' ==> r as int == c as int + 32
    ensures !('A' <= c <= 'Z') ==> r == c
    ensures !('A' <= r <= 'Z')
  {
    if 'A' <= c <= 'Z' then (c as int + 32) as char else c
  }

  /** `toLowerCase` on a key name, character by character. */
  function Lower(s: string): (r: string)
    ensures |r| == |s|
    ensures forall i | 0 <= i < |s| :: r[i] == LowerChar(s[i])
  {
    if s == [] then [] else [LowerChar(s[0])] + Lower(s[1..])
  }

  /** Lower-casing twice is lower-casing once. */
  lemma LowerIdempotent(s: string)
    ensures Lower(Lower(s)) == Lower(s)
  {
    var t := Lower(s);
    assert forall i | 0 <= i < |t| :: LowerChar(t[i]) == t[i];
  }

  /** `handleKeyPress` without its logging: before the name is given or
      while waiting for a match no key does anything; in a game, backspace
      on a non-empty guess deletes, enter on a full guess submits, and a
      single letter a-z is typed while the guess is not full.  The number of
      past guesses and the game-over flag are not looked at. */
  function HandleKeyPress(gotName: bool, gotMatch: bool, guess: string, key: string)
    : (r: Option<KeyAction>)
    ensures !gotName || !gotMatch ==> r == None
    ensures r == Some(BackspaceKey) <==>
      gotName && gotMatch && Lower(key) == BackspaceName && |guess| >= MinGuessLen
    ensures r == Some(GuessKey) <==>
      gotName && gotMatch && Lower(key) == EnterName && |guess| == MaxGuessLength
    ensures r.Some? && r.value.LetterKey? <==>
      gotName && gotMatch && |key| == KeyLength && 'a' <= LowerChar(key[0]) <= 'z'
      && |guess| != MaxGuessLength
    ensures r.Some? && r.value.LetterKey? ==>
      r.value.letter == Lower(key) && |r.value.letter| == 1 && 'a' <= r.value.letter[0] <= 'z'
  {
    if !gotName then None
    else if !gotMatch then None
    else
      var readyToGuess := |guess| == MaxGuessLength;
      var keycode := Lower(key);
      if keycode == BackspaceName && |guess| >= MinGuessLen then Some(BackspaceKey)
      else if readyToGuess && keycode == EnterName then Some(GuessKey)
      else if !readyToGuess && |keycode| == KeyLength && 'a' <= keycode[0] <= 'z' then Some(LetterKey(keycode))
      else None
  }

  /** Upper- and lower-case spellings of a key do the same. */
  lemma CaseDoesNotMatter(gotName: bool, gotMatch: bool, guess: string, key: string)
    ensures HandleKeyPress(gotName, gotMatch, guess, key) == HandleKeyPress(gotName, gotMatch, guess, Lower(key))
  {
    LowerIdempotent(key);
  }

  /** With at most five letters typed, a letter is only sent while fewer
      than five are: the client never asks for a sixth. */
  lemma NeverASixthLetter(guess: string, key: string)
    requires |guess| <= MaxGuessLength
    ensures var r := HandleKeyPress(true, true, guess, key);
      r.Some? && r.value.LetterKey? ==> |guess| < MaxGuessLength
  {
  }

  /** Typing "A" sends the letter "a". */
  lemma UpperCaseLetterIsLowered()
    ensures HandleKeyPress(true, true, "", "A") == Some(LetterKey("a"))
  {
    assert Lower("A") == "a";
  }

  /** With five letters typed, enter submits and a further letter is
      ignored. */
  lemma FullGuessOnlySubmits(guess: string)
    requires |guess| == MaxGuessLength
    ensures HandleKeyPress(true, true, guess, "Enter") == Some(GuessKey)
    ensures HandleKeyPress(true, true, guess, "x") == None
  {
    assert Lower("Enter") == EnterName;
    assert Lower("x") == "x";
  }
}

=== FILE: legacy.dfy ===
/** The earlier server (backend/_deprecated/server.py): a global queue,
    rooms numbered by a counter, comma-separated actions on a per-room
    channel, string-valued `gameover` and `winner` fields, and a win rule
    that looks at the players in room order.

    Player ids are text throughout: the join request carries them as text.
    The action parser converts a misspelt copy (`payer_id`, line 303) with
    `int()`, so a player text that is not an integer numeral refuses the
    action, while the id checked against the room is still the text. */
module Legacy {
  import opened Wrappers
  import opened PyInt

  type PlayerId = string
  type RoomId = nat
  type Socket = nat

  const MaxGuessLen: nat := 5
  const MaxNumGuesses: nat := 6
  const NotOver := "false"
  const Over := "true"
  const NoWinner := "none"

  datatype Room = Room(
    playerIds: seq<PlayerId>,
    roomId: RoomId,
    guesses: map<PlayerId, string>,
    pastGuesses: map<PlayerId, seq<string>>,
    secretWords: map<PlayerId, string>,
    gameover: string,
    winner: string)

  /** The module-level globals of the server. */
  datatype Server = Server(
    queue: seq<PlayerId>,
    rooms: map<RoomId, Room>,
    roomSockets: map<RoomId, seq<Socket>>,
    player2rooms: map<PlayerId, RoomId>,
    latestRoomId: nat,
    latestPlayerId: nat)

  const Initial := Server([], map[], map[], map[], 0, 0)

  datatype LegacyError =
    | AlreadyQueued        // the RuntimeError of `try_to_pair_players`
    | BadPlayerId          // the action parser's `int()` of the player text
    | BadPayload           // the action parser's payload-length assertion
    | NoRoomOrPlayer       // `room_and_player_ok` failed
    | Rejected             // a validator failed
    | FirstContactRefused  // `first_contact_ok` failed

  datatype Action = LetterAction | BackspaceAction | GuessAction

  ghost function Members(rm: Room): set<PlayerId>
    requires |rm.playerIds| == 2
  {
    {rm.playerIds[0], rm.playerIds[1]}
  }

  /** A room as `try_to_join_room` builds it and the actions keep it. */
  ghost predicate RoomValid(rm: Room, r: RoomId)
  {
    && |rm.playerIds| == 2 && rm.playerIds[0] != rm.playerIds[1]
    && rm.roomId == r
    && rm.guesses.Keys == Members(rm)
    && rm.pastGuesses.Keys == Members(rm)
    && rm.secretWords.Keys == Members(rm)
    && (forall q | q in rm.guesses :: |rm.guesses[q]| <= MaxGuessLen)
    && (forall q | q in rm.pastGuesses :: |rm.pastGuesses[q]| <= MaxNumGuesses)
    && (rm.gameover == NotOver || rm.gameover == Over)
    && (rm.gameover == NotOver ==> rm.winner == NoWinner)
    && (rm.winner == NoWinner || rm.winner in rm.playerIds)
  }

  /** A running game has no player who already holds their word among
      their past guesses: `update_with_gameover` runs after every accepted
      action, so a win is noticed by the action that makes it. */
  ghost predicate WinNoticed(rm: Room)
  {
    rm.gameover == NotOver ==>
      forall q | q in rm.secretWords && q in rm.pastGuesses :: rm.secretWords[q] !in rm.pastGuesses[q]
  }

  /** A stored room: numbered by the counter so far, well formed, and with
      every win noticed. */
  ghost predicate RoomOk(rm: Room, r: RoomId, latest: nat)
  {
    1 <= r <= latest && RoomValid(rm, r) && WinNoticed(rm)
  }

  /** A player's room exists and lists the player. */
  ghost predicate MappedOk(rooms: map<RoomId, Room>, p: PlayerId, r: RoomId)
  {
    r in rooms && p in rooms[r].playerIds
  }

  /** Every stored room is well formed and numbered at most `latest`. */
  ghost predicate RoomsOk(rooms: map<RoomId, Room>, latest: nat)
  {
    forall r {:trigger RoomOk(rooms[r], r, latest)} | r in rooms :: RoomOk(rooms[r], r, latest)
  }

  /** Every player with a room is listed in it. */
  ghost predicate MappingsOk(rooms: map<RoomId, Room>, player2rooms: map<PlayerId, RoomId>)
  {
    forall p {:trigger MappedOk(rooms, p, player2rooms[p])} | p in player2rooms ::
      MappedOk(rooms, p, player2rooms[p])
  }

  ghost predicate Inv(s: Server)
  {
    && |s.queue| <= 1
    && (forall i | 0 <= i < |s.queue| :: s.queue[i] !in s.player2rooms)
    && s.rooms.Keys == s.roomSockets.Keys
    && RoomsOk(s.rooms, s.latestRoomId)
    && (forall r | r in s.roomSockets :: |s.roomSockets[r]| <= 2)
    && MappingsOk(s.rooms, s.player2rooms)
  }

  lemma RoomIsValid(s: Server, room: RoomId)
    requires Inv(s) && room in s.rooms
    ensures RoomOk(s.rooms[room], room, s.latestRoomId) && RoomValid(s.rooms[room], room)
  {
  }

  lemma PlayerRoomExists(s: Server, p: PlayerId)
    requires Inv(s) && p in s.player2rooms
    ensures MappedOk(s.rooms, p, s.player2rooms[p])
  {
  }

  lemma InitialInv()
    ensures Inv(Initial)
  {
  }

  // ---------------------------------------------------------------------
  // Pairing and rooms

  /** `try_to_pair_players`: a player already queued is an error; with
      nobody queued the player becomes the whole queue; otherwise the last
      queued player is popped as the opponent. */
  function TryToPairPlayers(queue: seq<PlayerId>, p: PlayerId)
    : (r: Result<(seq<PlayerId>, Option<(PlayerId, PlayerId)>), LegacyError>)
    ensures r.Err? <==> p in queue
    ensures r.Ok? && |queue| == 0 ==> r.value == ([p], None)
    ensures r.Ok? && |queue| > 0 ==>
      && r.value.1 == Some((p, queue[|queue| - 1]))
      && r.value.0 + [queue[|queue| - 1]] == queue
      && r.value.1.value.1 != p
  {
    if p in queue then Err(AlreadyQueued)
    else if |queue| < 1 then Ok(([p], None))
    else
      var opponent := queue[|queue| - 1];
      assert queue[..|queue| - 1] + [opponent] == queue;
      Ok((queue[..|queue| - 1], Some((p, opponent))))
  }

  /** `create_room_id`: the counter's next value. */
  function CreateRoomId(s: Server): (r: (Server, RoomId))
    ensures r.1 > s.latestRoomId && r.0 == s.(latestRoomId := r.1)
    ensures Inv(s) ==> r.1 !in s.rooms
  {
    assert Inv(s) ==> s.latestRoomId + 1 !in s.rooms by {
      if Inv(s) && s.latestRoomId + 1 in s.rooms { RoomIsValid(s, s.latestRoomId + 1); }
    }
    (s.(latestRoomId := s.latestRoomId + 1), s.latestRoomId + 1)
  }

  /** `create_player_id`: the counter's next value. */
  function CreatePlayerId(s: Server): (r: (Server, nat))
    ensures r.1 > s.latestPlayerId && r.0 == s.(latestPlayerId := r.1)
  {
    (s.(latestPlayerId := s.latestPlayerId + 1), s.latestPlayerId + 1)
  }

  /** `n` successive `create_player_id` calls and the ids they return. */
  function CreatePlayerIds(s: Server, n: nat): (r: (Server, seq<nat>))
    ensures |r.1| == n
    ensures forall i | 0 <= i < n :: r.1[i] > s.latestPlayerId
    ensures forall i, j | 0 <= i < j < n :: r.1[i] < r.1[j]
    ensures r.0.latestPlayerId == s.latestPlayerId + n
    ensures forall i | 0 <= i < n :: r.1[i] <= r.0.latestPlayerId
    decreases n
  {
    if n == 0 then (s, [])
    else
      var (s1, id) := CreatePlayerId(s);
      var (s2, ids) := CreatePlayerIds(s1, n - 1);
      (s2, [id] + ids)
  }

  /** The room `try_to_join_room` creates for a fresh pair. */
  function NewRoom(p: PlayerId, opponent: PlayerId, r: RoomId, word1: string, word2: string): (rm: Room)
    requires p != opponent
    ensures RoomValid(rm, r) && WinNoticed(rm)
    ensures rm.playerIds == [p, opponent]
    ensures rm.guesses[p] == "" && rm.guesses[opponent] == ""
    ensures rm.pastGuesses[p] == [] && rm.pastGuesses[opponent] == []
    ensures rm.secretWords[p] == word1 && rm.secretWords[opponent] == word2
    ensures rm.gameover == NotOver && rm.winner == NoWinner
  {
    Room([p, opponent], r,
      map[p := "", opponent := ""],
      map[p := [], opponent := []],
      map[p := word1, opponent := word2],
      NotOver, NoWinner)
  }

  /** `try_to_join_room`, with the two fetched secret words as parameters:
      a player already in a room gets that room back; otherwise the player
      is paired, and a pair gets a new room with no channels yet. */
  function TryToJoinRoom(s: Server, p: PlayerId, word1: string, word2: string)
    : (r: Result<(Server, Option<RoomId>), LegacyError>)
    requires Inv(s)
    ensures r.Ok? ==> Inv(r.value.0)
    ensures p in s.player2rooms ==> r == Ok((s, Some(s.player2rooms[p])))
    ensures r.Err? <==> p !in s.player2rooms && p in s.queue
    ensures p !in s.player2rooms && p !in s.queue && s.queue == [] ==>
      r == Ok((s.(queue := [p]), None))
    ensures p !in s.player2rooms && p !in s.queue && s.queue != [] ==>
      && r.Ok? && r.value.1.Some?
      && s.queue == [s.queue[0]] && p != s.queue[0]
      && r.value == (var o := OpenRoom(s, p, s.queue[0], word1, word2); (o.0, Some(o.1)))
  {
    if p in s.player2rooms then Ok((s, Some(s.player2rooms[p])))
    else
      var paired := TryToPairPlayers(s.queue, p);
      if paired.Err? then Err(paired.error)
      else if paired.value.1.None? then Ok((s.(queue := paired.value.0), None))
      else
        var opponent := paired.value.1.value.1;
        assert s.queue == [opponent];
        var o := OpenRoom(s, p, opponent, word1, word2);
        Ok((o.0, Some(o.1)))
  }

  /** The pairing branch of `try_to_join_room`: the opponent leaves the
      queue, the counter gives a room number never used before, the room
      starts with no channels and both players map to it. */
  function OpenRoom(s: Server, p: PlayerId, opponent: PlayerId, word1: string, word2: string)
    : (r: (Server, RoomId))
    requires Inv(s) && s.queue == [opponent] && p !in s.player2rooms && p != opponent
    ensures Inv(r.0)
    ensures var (s', room) := r;
      && room !in s.rooms && room == s'.latestRoomId
      && s'.queue == []
      && s'.rooms == s.rooms[room := NewRoom(p, opponent, room, word1, word2)]
      && s'.roomSockets == s.roomSockets[room := []]
      && s'.player2rooms == s.player2rooms[p := room][opponent := room]
      && s'.latestPlayerId == s.latestPlayerId
  {
    var (s1, room) := CreateRoomId(s.(queue := []));
    assert room !in s.rooms by {
      if room in s.rooms { RoomIsValid(s, room); }
    }
    var s' := s1.(
      rooms := s1.rooms[room := NewRoom(p, opponent, room, word1, word2)],
      roomSockets := s1.roomSockets[room := []],
      player2rooms := s1.player2rooms[p := room][opponent := room]);
    NewRoomKeepsInv(s, s', room, p, opponent, word1, word2);
    (s', room)
  }

  lemma NewRoomKeepsInv(s: Server, s': Server, room: RoomId, p: PlayerId, opponent: PlayerId,
                        word1: string, word2: string)
    requires Inv(s) && s.queue == [opponent] && p !in s.player2rooms && p != opponent
    requires room == s.latestRoomId + 1
    requires s' == s.(queue := [], latestRoomId := room,
                      rooms := s.rooms[room := NewRoom(p, opponent, room, word1, word2)],
                      roomSockets := s.roomSockets[room := []],
                      player2rooms := s.player2rooms[p := room][opponent := room])
    ensures Inv(s')
  {
    assert s.queue[0] == opponent;
    var rm := NewRoom(p, opponent, room, word1, word2);
    AddRoomKeepsRoomsOk(s.rooms, s.latestRoomId, room, rm);
    AddRoomKeepsMappingsOk(s.rooms, s.latestRoomId, s.player2rooms, room, rm, p, opponent);
  }

  lemma AddRoomKeepsRoomsOk(rooms: map<RoomId, Room>, latest: nat, room: RoomId, rm: Room)
    requires RoomsOk(rooms, latest) && room == latest + 1 && RoomValid(rm, room) && WinNoticed(rm)
    ensures RoomsOk(rooms[room := rm], room)
  {
    var rooms' := rooms[room := rm];
    forall r | r in rooms'
      ensures RoomOk(rooms'[r], r, room)
    {
      if r != room { assert RoomOk(rooms[r], r, latest); }
    }
  }

  lemma AddRoomKeepsMappingsOk(rooms: map<RoomId, Room>, latest: nat, player2rooms: map<PlayerId, RoomId>,
                               room: RoomId, rm: Room, p: PlayerId, opponent: PlayerId)
    requires RoomsOk(rooms, latest) && MappingsOk(rooms, player2rooms) && room == latest + 1
    requires rm.playerIds == [p, opponent]
    ensures MappingsOk(rooms[room := rm], player2rooms[p := room][opponent := room])
  {
    var rooms' := rooms[room := rm];
    var p2r := player2rooms[p := room][opponent := room];
    forall q | q in p2r
      ensures MappedOk(rooms', q, p2r[q])
    {
      if q != p && q != opponent {
        assert MappedOk(rooms, q, player2rooms[q]);
        assert RoomOk(rooms[player2rooms[q]], player2rooms[q], latest);
      }
    }
  }

  // ---------------------------------------------------------------------
  // Channel and action validators

  /** `first_contact_ok`: the room exists, has fewer than two channels and
      not this one.  So attaching the channel leaves at most two, each once. */
  function FirstContactOk(s: Server, room: RoomId, ws: Socket): (ok: bool)
    requires s.rooms.Keys == s.roomSockets.Keys
    ensures ok ==>
      && room in s.roomSockets && |s.roomSockets[room] + [ws]| <= 2
      && multiset(s.roomSockets[room] + [ws])[ws] == 1
  {
    && room in s.rooms
    && |s.roomSockets[room]| < 2
    && ws !in s.roomSockets[room]
  }

  /** The first message on a channel: check it, attach the channel to the
      room (line 289) and send the room's current state to that channel
      (line 291).  The result holds the new globals and the state sent. */
  function Attach(s: Server, room: RoomId, ws: Socket): (r: Result<(Server, Room), LegacyError>)
    requires Inv(s)
    ensures r.Err? <==> !FirstContactOk(s, room, ws)
    ensures r.Ok? ==>
      && Inv(r.value.0)
      && r.value.0 == s.(roomSockets := s.roomSockets[room := s.roomSockets[room] + [ws]])
      && |r.value.0.roomSockets[room]| <= 2
      && ws !in s.roomSockets[room]
      && room in s.rooms && r.value.1 == s.rooms[room]
  {
    if !FirstContactOk(s, room, ws) then Err(FirstContactRefused)
    else Ok((s.(roomSockets := s.roomSockets[room := s.roomSockets[room] + [ws]]), s.rooms[room]))
  }

  /** `room_and_player_ok`: the room exists and the actor has a place in
      its list of players. */
  function RoomAndPlayerOk(s: Server, room: RoomId, p: PlayerId): (ok: bool)
    ensures ok ==>
      && room in s.rooms
      && exists i | 0 <= i < |s.rooms[room].playerIds| :: s.rooms[room].playerIds[i] == p
  {
    room in s.rooms && p in s.rooms[room].playerIds
  }

  /** The character test of `letter_ok` as written: `not` binds tighter than
      `and`, so it reads "not (a <= c), and c <= z". */
  predicate CharRejected(c: char)
  {
    !('a' <= c) && c <= 'z'
  }

  /** `letter_ok`: a non-empty payload whose single character, if it is a
      single one, is not below 'a', while the input has room. */
  function LetterOk(rm: Room, p: PlayerId, payload: string): (ok: bool)
    requires p in rm.guesses
    ensures ok <==>
      && payload != ""
      && (|payload| == 1 ==> payload[0] >= 'a')
      && |rm.guesses[p]| != MaxGuessLen
  {
    if |payload| == 0 then false
    else if |payload| == 1 && CharRejected(payload[0]) then false
    else if |rm.guesses[p]| == MaxGuessLen then false
    else true
  }

  /** `backspace_ok`; its bare `return` yields None, which the caller reads
      as false. */
  function BackspaceOk(rm: Room, p: PlayerId, payload: string): (ok: bool)
    requires p in rm.guesses
    ensures ok <==> payload == "" && rm.guesses[p] != ""
  {
    if |payload| != 0 then false
    else if |rm.guesses[p]| == 0 then false
    else true
  }

  /** `guess_ok`: an empty payload, a full input, and fewer than six past
      guesses. */
  function GuessOk(rm: Room, p: PlayerId, payload: string): (ok: bool)
    requires p in rm.guesses && p in rm.pastGuesses
    ensures ok <==> payload == "" && |rm.guesses[p]| == MaxGuessLen && |rm.pastGuesses[p]| < MaxNumGuesses
  {
    if |payload| != 0 then false
    else if |rm.guesses[p]| != MaxGuessLen then false
    else if |rm.pastGuesses[p]| >= MaxNumGuesses then false
    else true
  }

  /** The character test rejects exactly the characters below 'a': every
      upper-case letter and digit, but not '{' or '~'. */
  lemma CharTestRejectsBelowA(c: char)
    ensures CharRejected(c) <==> c < 'a'
  {
  }

  /** A single character above 'z' passes `letter_ok`; an upper-case one
      does not. */
  lemma LetterOkLetsThroughAboveZ(rm: Room, p: PlayerId)
    requires p in rm.guesses && |rm.guesses[p]| < MaxGuessLen
    ensures LetterOk(rm, p, "{")
    ensures !LetterOk(rm, p, "A")
  {
  }

  // ---------------------------------------------------------------------
  // Applying an action and ending the game

  /** `update_with_gameover`: in a running game, the first player in room
      order whose secret word is among their past guesses becomes the winner
      and the game ends.  Nothing else ends a game. */
  function UpdateWithGameover(rm: Room): (r: (Room, bool))
    requires |rm.playerIds| == 2
    requires rm.secretWords.Keys == Members(rm) && rm.pastGuesses.Keys == Members(rm)
    ensures r.1 <==> rm.gameover == NotOver && exists i | 0 <= i < 2 :: Solved(rm, i)
    ensures !r.1 ==> r.0 == rm
    ensures r.1 ==>
      && var i := if Solved(rm, 0) then 0 else 1;
      && Solved(rm, i)
      && r.0 == rm.(gameover := Over, winner := rm.playerIds[i])
  {
    if rm.gameover == NotOver then
      if Solved(rm, 0) then (rm.(gameover := Over, winner := rm.playerIds[0]), true)
      else if Solved(rm, 1) then (rm.(gameover := Over, winner := rm.playerIds[1]), true)
      else (rm, false)
    else (rm, false)
  }

  /** Player `i` of the room has guessed their own secret word. */
  predicate Solved(rm: Room, i: nat)
    requires i < |rm.playerIds| && rm.playerIds[i] in rm.secretWords && rm.playerIds[i] in rm.pastGuesses
  {
    rm.secretWords[rm.playerIds[i]] in rm.pastGuesses[rm.playerIds[i]]
  }

  /** Python's `s[:-1]`: everything but the last character, and "" for "". */
  function DropLast(w: string): (r: string)
    ensures |w| > 0 ==> r + [w[|w| - 1]] == w
    ensures |w| == 0 ==> r == ""
  {
    if |w| == 0 then "" else w[..|w| - 1]
  }

  /** The change an accepted action makes (lines 313-326). */
  function ApplyToRoom(rm: Room, action: Action, p: PlayerId, payload: string): (r: Room)
    requires p in rm.guesses && p in rm.pastGuesses
    // Only the acting player's input and history change.
    ensures r == rm.(guesses := r.guesses, pastGuesses := r.pastGuesses)
    ensures r.guesses.Keys == rm.guesses.Keys && r.pastGuesses.Keys == rm.pastGuesses.Keys
    ensures forall q | q in rm.guesses && q != p :: r.guesses[q] == rm.guesses[q]
    ensures forall q | q in rm.pastGuesses && q != p :: r.pastGuesses[q] == rm.pastGuesses[q]
    // A guess moves the input into the history; the other actions keep it.
    ensures action == GuessAction <==> |r.pastGuesses[p]| == |rm.pastGuesses[p]| + 1
    ensures action == GuessAction ==> r.pastGuesses[p][|rm.pastGuesses[p]|] == rm.guesses[p] && r.guesses[p] == ""
  {
    match action
    case LetterAction => rm.(guesses := rm.guesses[p := rm.guesses[p] + payload])
    case BackspaceAction => rm.(guesses := rm.guesses[p := DropLast(rm.guesses[p])])
    case GuessAction =>
      rm.(pastGuesses := rm.pastGuesses[p := rm.pastGuesses[p] + [rm.guesses[p]]],
          guesses := rm.guesses[p := ""])
  }

  /** The validator `action` is checked with. */
  predicate ActionOk(rm: Room, action: Action, p: PlayerId, payload: string)
    requires p in rm.guesses && p in rm.pastGuesses
  {
    match action
    case LetterAction => LetterOk(rm, p, payload)
    case BackspaceAction => BackspaceOk(rm, p, payload)
    case GuessAction => GuessOk(rm, p, payload)
  }

  /** What an accepted action leads to: the new globals, whether this
      action ended the game, the channels the room's state went to and
      whether the connection's loop stops.  With fewer than two channels
      attached the broadcast assertion fails after the change is made, so
      the state is kept and the connection stops. */
  datatype Applied = Applied(server: Server, gameIsOver: bool, notified: seq<Socket>, connectionEnds: bool)

  /** One action received on a room's channel (lines 297-338). */
  function ApplyAction(s: Server, action: Action, room: RoomId, p: PlayerId, payload: string)
    : (r: Result<Applied, LegacyError>)
    requires Inv(s)
    ensures r.Err? <==>
      || !IsIntText(p)
      || |payload| > 1
      || !RoomAndPlayerOk(s, room, p)
      || (RoomIsValid(s, room); !ActionOk(s.rooms[room], action, p, payload))
    ensures r.Ok? ==> Inv(r.value.server)
    ensures r.Ok? ==>
      && var s' := r.value.server;
      && s'.rooms.Keys == s.rooms.Keys
      && s' == s.(rooms := s.rooms[room := s'.rooms[room]])
      && RoomStep(s.rooms[room], s'.rooms[room], p)
      && (r.value.gameIsOver <==> s.rooms[room].gameover == NotOver && s'.rooms[room].gameover == Over)
      && (|s.roomSockets[room]| == 2 ==> r.value.notified == s.roomSockets[room])
      && (|s.roomSockets[room]| != 2 ==> r.value.notified == [])
      && (r.value.connectionEnds <==> r.value.gameIsOver || |s.roomSockets[room]| != 2)
    // The action that ends a game is always a win of its own actor.
    ensures r.Ok? && r.value.gameIsOver ==> r.value.server.rooms[room].winner == p
  {
    if !IsIntText(p) then Err(BadPlayerId)
    else if |payload| > 1 then Err(BadPayload)
    else if !RoomAndPlayerOk(s, room, p) then Err(NoRoomOrPlayer)
    else
      RoomIsValid(s, room);
      var rm := s.rooms[room];
      if !ActionOk(rm, action, p, payload) then Err(Rejected)
      else
        var changed := ApplyToRoom(rm, action, p, payload);
        ActionKeepsRoomValid(rm, room, action, p, payload);
        var (rm', over) := UpdateWithGameover(changed);
        UpdateNoticesWin(changed, room);
        OnlyActorCanWin(rm, changed, room, p);
        var s' := s.(rooms := s.rooms[room := rm']);
        assert Inv(s') by { ReplaceRoomKeepsInv(s, room, rm'); }
        var sockets := s.roomSockets[room];
        var full := |sockets| == 2;
        Ok(Applied(s', over, if full then sockets else [], over || !full))
  }

  /** What one accepted action may do to its room: the roster and secret
      words stay, only the acting player's guesses change, a game over stays
      over and a winner stays the winner. */
  ghost predicate RoomStep(rm: Room, rm': Room, p: PlayerId)
  {
    && rm'.playerIds == rm.playerIds && rm'.roomId == rm.roomId
    && rm'.secretWords == rm.secretWords
    && rm'.guesses.Keys == rm.guesses.Keys && rm'.pastGuesses.Keys == rm.pastGuesses.Keys
    && (forall q | q in rm.guesses && q != p :: rm'.guesses[q] == rm.guesses[q])
    && (forall q | q in rm.pastGuesses && q != p :: rm'.pastGuesses[q] == rm.pastGuesses[q])
    && (rm.gameover == Over ==> rm'.gameover == Over)
    && (rm.gameover == Over ==> rm'.winner == rm.winner)
  }

  /** After `update_with_gameover` every win is noticed. */
  lemma UpdateNoticesWin(rm: Room, room: RoomId)
    requires RoomValid(rm, room)
    ensures RoomValid(UpdateWithGameover(rm).0, room) && WinNoticed(UpdateWithGameover(rm).0)
  {
    var (rm', over) := UpdateWithGameover(rm);
    if !over && rm.gameover == NotOver {
      forall q | q in rm.secretWords && q in rm.pastGuesses
        ensures rm.secretWords[q] !in rm.pastGuesses[q]
      {
        if q == rm.playerIds[0] { assert !Solved(rm, 0); } else { assert !Solved(rm, 1); }
      }
    }
  }

  /** In a running game whose wins were all noticed, an action can only
      make its own actor solved. */
  lemma OnlyActorCanWin(rm: Room, changed: Room, room: RoomId, p: PlayerId)
    requires RoomValid(rm, room) && WinNoticed(rm)
    requires RoomValid(changed, room) && RoomStep(rm, changed, p)
    ensures rm.gameover == NotOver ==>
      forall i | 0 <= i < 2 :: Solved(changed, i) ==> changed.playerIds[i] == p
  {
    forall i | 0 <= i < 2 && changed.playerIds[i] != p && rm.gameover == NotOver
      ensures !Solved(changed, i)
    {
      var q := changed.playerIds[i];
      assert changed.pastGuesses[q] == rm.pastGuesses[q];
      assert q in rm.secretWords;
    }
  }

  lemma ActionKeepsRoomValid(rm: Room, room: RoomId, action: Action, p: PlayerId, payload: string)
    requires RoomValid(rm, room) && p in rm.playerIds && |payload| <= 1
    requires ActionOk(rm, action, p, payload)
    ensures RoomValid(ApplyToRoom(rm, action, p, payload), room)
    ensures RoomStep(rm, ApplyToRoom(rm, action, p, payload), p)
  {
    match action
    case LetterAction => LetterKeepsRoomValid(rm, room, p, payload);
    case BackspaceAction => BackspaceKeepsRoomValid(rm, room, p, payload);
    case GuessAction => GuessKeepsRoomValid(rm, room, p, payload);
  }

  lemma LetterKeepsRoomValid(rm: Room, room: RoomId, p: PlayerId, payload: string)
    requires RoomValid(rm, room) && p in rm.playerIds && |payload| <= 1
    requires LetterOk(rm, p, payload)
    ensures RoomValid(ApplyToRoom(rm, LetterAction, p, payload), room)
    ensures RoomStep(rm, ApplyToRoom(rm, LetterAction, p, payload), p)
  {
    var rm' := ApplyToRoom(rm, LetterAction, p, payload);
    assert Members(rm') == Members(rm);
    assert |rm'.guesses[p]| == |rm.guesses[p]| + 1 <= MaxGuessLen;
  }

  lemma BackspaceKeepsRoomValid(rm: Room, room: RoomId, p: PlayerId, payload: string)
    requires RoomValid(rm, room) && p in rm.playerIds
    requires BackspaceOk(rm, p, payload)
    ensures RoomValid(ApplyToRoom(rm, BackspaceAction, p, payload), room)
    ensures RoomStep(rm, ApplyToRoom(rm, BackspaceAction, p, payload), p)
  {
    var rm' := ApplyToRoom(rm, BackspaceAction, p, payload);
    assert Members(rm') == Members(rm);
  }

  lemma GuessKeepsRoomValid(rm: Room, room: RoomId, p: PlayerId, payload: string)
    requires RoomValid(rm, room) && p in rm.playerIds
    requires GuessOk(rm, p, payload)
    ensures RoomValid(ApplyToRoom(rm, GuessAction, p, payload), room)
    ensures RoomStep(rm, ApplyToRoom(rm, GuessAction, p, payload), p)
  {
    var rm' := ApplyToRoom(rm, GuessAction, p, payload);
    assert Members(rm') == Members(rm);
    assert |rm'.pastGuesses[p]| == |rm.pastGuesses[p]| + 1 <= MaxNumGuesses;
  }

  lemma ReplaceRoomKeepsInv(s: Server, room: RoomId, rm: Room)
    requires Inv(s) && room in s.rooms
    requires RoomValid(rm, room) && WinNoticed(rm) && rm.playerIds == s.rooms[room].playerIds
    ensures Inv(s.(rooms := s.rooms[room := rm]))
  {
    RoomIsValid(s, room);
    ReplaceRoomKeepsRoomsOk(s.rooms, s.latestRoomId, room, rm);
    ReplaceRoomKeepsMappingsOk(s.rooms, s.player2rooms, room, rm);
  }

  lemma ReplaceRoomKeepsRoomsOk(rooms: map<RoomId, Room>, latest: nat, room: RoomId, rm: Room)
    requires RoomsOk(rooms, latest) && room in rooms && RoomOk(rooms[room], room, latest)
    requires RoomValid(rm, room) && WinNoticed(rm)
    ensures RoomsOk(rooms[room := rm], latest)
  {
    var rooms' := rooms[room := rm];
    forall r | r in rooms'
      ensures RoomOk(rooms'[r], r, latest)
    {
      if r != room { assert RoomOk(rooms[r], r, latest); }
    }
  }

  lemma ReplaceRoomKeepsMappingsOk(rooms: map<RoomId, Room>, player2rooms: map<PlayerId, RoomId>,
                                   room: RoomId, rm: Room)
    requires MappingsOk(rooms, player2rooms) && room in rooms
    requires rm.playerIds == rooms[room].playerIds
    ensures MappingsOk(rooms[room := rm], player2rooms)
  {
    forall q | q in player2rooms
      ensures MappedOk(rooms[room := rm], q, player2rooms[q])
    {
      assert MappedOk(rooms, q, player2rooms[q]);
    }
  }
}

=== FILE: legacy_properties.dfy ===
/** Properties of the earlier server over single actions and over whole
    action sequences (backend/_deprecated/server.py:73-338). */
module LegacyProperties {
  import opened Wrappers
  import opened Legacy
  import opened PyInt

  /** An accepted action changes the acting player's guesses exactly as the
      action says; the game-over fields are the only other change. */
  lemma ActionEffects(s: Server, action: Action, room: RoomId, p: PlayerId, payload: string)
    requires Inv(s)
    ensures var r := ApplyAction(s, action, room, p, payload);
      r.Ok? ==>
        && var before := s.rooms[room];
        && var after := r.value.server.rooms[room];
        && p in before.guesses && p in after.guesses
        && p in before.pastGuesses && p in after.pastGuesses
        && (action == LetterAction ==>
              |payload| == 1 && after.guesses[p] == before.guesses[p] + payload
              && after.pastGuesses[p] == before.pastGuesses[p])
        && (action == BackspaceAction ==>
              payload == "" && |before.guesses[p]| > 0
              && after.guesses[p] + [before.guesses[p][|before.guesses[p]| - 1]] == before.guesses[p]
              && after.pastGuesses[p] == before.pastGuesses[p])
        && (action == GuessAction ==>
              payload == "" && |before.guesses[p]| == MaxGuessLen
              && after.guesses[p] == ""
              && after.pastGuesses[p] == before.pastGuesses[p] + [before.guesses[p]])
  {
    var r := ApplyAction(s, action, room, p, payload);
    if r.Ok? {
      RoomIsValid(s, room);
      var rm := s.rooms[room];
      var changed := ApplyToRoom(rm, action, p, payload);
      assert r.value.server.rooms[room] == UpdateWithGameover(changed).0;
    }
  }

  /** Once both players have six past guesses and neither has guessed their
      word, no accepted action can end the game: exhausting the guesses is
      not a way to finish. */
  lemma ExhaustionNeverEndsGame(s: Server, action: Action, room: RoomId, p: PlayerId, payload: string)
    requires Inv(s) && room in s.rooms
    requires s.rooms[room].gameover == NotOver
    requires forall q | q in s.rooms[room].pastGuesses && q in s.rooms[room].secretWords ::
      |s.rooms[room].pastGuesses[q]| == MaxNumGuesses
      && s.rooms[room].secretWords[q] !in s.rooms[room].pastGuesses[q]
    ensures var r := ApplyAction(s, action, room, p, payload);
      r.Ok? ==> !r.value.gameIsOver && r.value.server.rooms[room].gameover == NotOver
  {
    var r := ApplyAction(s, action, room, p, payload);
    if r.Ok? {
      RoomIsValid(s, room);
      var rm := s.rooms[room];
      assert RoomAndPlayerOk(s, room, p) && ActionOk(rm, action, p, payload);
      assert action != GuessAction;
      var changed := ApplyToRoom(rm, action, p, payload);
      assert changed.pastGuesses == rm.pastGuesses;
      assert !Solved(changed, 0) && !Solved(changed, 1);
    }
  }

  /** `update_with_gameover` scans the room in order, so a running room in
      which both players have found their words names the first listed.
      No stored room is ever in that state (see RunningRoomIsUnsolved): the
      scan runs after every action, and the action that ends a game names
      its own actor (ApplyAction). */
  lemma FirstListedPlayerWins(rm: Room)
    requires |rm.playerIds| == 2
    requires rm.secretWords.Keys == Members(rm) && rm.pastGuesses.Keys == Members(rm)
    requires rm.gameover == NotOver && Solved(rm, 0) && Solved(rm, 1)
    ensures UpdateWithGameover(rm).0.winner == rm.playerIds[0]
  {
  }

  /** A stored running room holds no player who has found their word, so
      the room-order tie-break of `update_with_gameover` never decides. */
  lemma RunningRoomIsUnsolved(s: Server, room: RoomId)
    requires Inv(s) && room in s.rooms && s.rooms[room].gameover == NotOver
    ensures (RoomIsValid(s, room); !Solved(s.rooms[room], 0) && !Solved(s.rooms[room], 1))
  {
    RoomIsValid(s, room);
    var rm := s.rooms[room];
    assert WinNoticed(rm);
    assert rm.playerIds[0] in rm.secretWords && rm.playerIds[1] in rm.secretWords;
  }

  /** Asking again for a room returns the same room and changes nothing;
      for a pair just formed this holds for both of its members. */
  lemma JoinRoomIsIdempotent(s: Server, p: PlayerId, w1: string, w2: string, w3: string, w4: string)
    requires Inv(s)
    ensures var r := TryToJoinRoom(s, p, w1, w2);
      r.Ok? && r.value.1.Some? ==>
        && var s' := r.value.0;
        && var room := r.value.1.value;
        && room in s'.rooms
        && TryToJoinRoom(s', p, w3, w4) == Ok((s', Some(room)))
        && (p !in s.player2rooms ==>
              forall q | q in s'.rooms[room].playerIds :: TryToJoinRoom(s', q, w3, w4) == Ok((s', Some(room))))
  {
    var r := TryToJoinRoom(s, p, w1, w2);
    if r.Ok? && r.value.1.Some? {
      if p in s.player2rooms {
        PlayerRoomExists(s, p);
      } else {
        OpenedRoomIsIdempotent(s, p, s.queue[0], w1, w2, w3, w4);
      }
    }
  }

  lemma OpenedRoomIsIdempotent(s: Server, p: PlayerId, opponent: PlayerId, w1: string, w2: string, w3: string, w4: string)
    requires Inv(s) && s.queue == [opponent] && p !in s.player2rooms && p != opponent
    ensures var (s', room) := OpenRoom(s, p, opponent, w1, w2);
      && room in s'.rooms
      && forall q | q in s'.rooms[room].playerIds :: TryToJoinRoom(s', q, w3, w4) == Ok((s', Some(room)))
  {
    var (s', room) := OpenRoom(s, p, opponent, w1, w2);
    assert s'.rooms[room].playerIds == [p, opponent];
    assert TryToJoinRoom(s', p, w3, w4) == Ok((s', Some(room)));
    assert TryToJoinRoom(s', opponent, w3, w4) == Ok((s', Some(room)));
  }

  /** The join request takes any text as a player id, but the action
      parser runs it through `int()`: a player named by a text that is not
      an integer numeral (such as "abc") is paired into a room and then has
      every action refused. */
  lemma NonNumericPlayerIsStuck(s: Server, q: PlayerId, p: PlayerId, w1: string, w2: string,
                                action: Action, payload: string)
    requires Inv(s) && s.queue == [] && q !in s.player2rooms && p !in s.player2rooms && p != q
    requires !IsIntText(p)
    ensures var r1 := TryToJoinRoom(s, q, w1, w2);
      && r1.Ok? && r1.value.1.None?
      && var r2 := TryToJoinRoom(r1.value.0, p, w1, w2);
      && r2.Ok? && r2.value.1.Some?
      && var (s2, room) := (r2.value.0, r2.value.1.value);
      && room in s2.rooms && p in s2.rooms[room].playerIds
      && ApplyAction(s2, action, room, p, payload) == Err(BadPlayerId)
  {
    var s1 := TryToJoinRoom(s, q, w1, w2).value.0;
    assert s1 == s.(queue := [q]);
    var o := OpenRoom(s1, p, q, w1, w2);
    assert p in o.0.rooms[o.1].playerIds;
  }

  /** One action as it arrives on a room's channel. */
  datatype ActionMsg = ActionMsg(action: Action, room: RoomId, player: PlayerId, payload: string)

  /** A sequence of actions, from any channels; a rejected action ends its
      connection and changes nothing. */
  function ApplyAll(s: Server, msgs: seq<ActionMsg>): (r: Server)
    requires Inv(s)
    ensures Inv(r)
    ensures r.rooms.Keys == s.rooms.Keys
    ensures r == s.(rooms := r.rooms)
    decreases |msgs|
  {
    if msgs == [] then s
    else
      var m := msgs[0];
      match ApplyAction(s, m.action, m.room, m.player, m.payload)
      case Ok(applied) => ApplyAll(applied.server, msgs[1..])
      case Err(_) => ApplyAll(s, msgs[1..])
  }

  /** A finished game stays finished with the same winner and players,
      whatever actions follow. */
  lemma {:induction false} FinishedGameStaysFinished(s: Server, msgs: seq<ActionMsg>, room: RoomId)
    requires Inv(s) && room in s.rooms && s.rooms[room].gameover == Over
    ensures var s' := ApplyAll(s, msgs);
      && room in s'.rooms
      && s'.rooms[room].gameover == Over
      && s'.rooms[room].winner == s.rooms[room].winner
      && s'.rooms[room].playerIds == s.rooms[room].playerIds
    decreases |msgs|
  {
    if msgs != [] {
      var m := msgs[0];
      var r := ApplyAction(s, m.action, m.room, m.player, m.payload);
      if r.Ok? {
        assert r.value.server.rooms[room].gameover == Over;
        FinishedGameStaysFinished(r.value.server, msgs[1..], room);
      } else {
        FinishedGameStaysFinished(s, msgs[1..], room);
      }
    }
  }

  /** After two channels are attached to a room, every further first
      contact for it is refused. */
  lemma NoThirdChannel(s: Server, room: RoomId, ws1: Socket, ws2: Socket, ws3: Socket)
    requires Inv(s)
    ensures var r1 := Attach(s, room, ws1);
      r1.Ok? ==>
        var r2 := Attach(r1.value.0, room, ws2);
        r2.Ok? ==> Attach(r2.value.0, room, ws3).Err?
  {
  }
}

=== FILE: protocol.dfy ===
/** The message kinds of the wire protocol (backend/game.py, `MessageType`). */
module Protocol {

  /** Clients send Create, Join, Guess, Letter and Backspace; the server answers
      with Creation, ErrorNotEnoughPlayers, GameState or ErrorUnk.  Leave is
      declared but never handled. */
  datatype MessageType =
    | Create
    | Creation
    | Join
    | ErrorNotEnoughPlayers
    | GameState
    | Guess
    | Letter
    | Backspace
    | Leave
    | ErrorUnk
}

=== FILE: pyint.dfy ===
/** Which texts Python's `int()` accepts in base 10, and the number such a
    text denotes: surrounding whitespace, an optional sign, then decimal
    digits with single underscores allowed between two digits. */
module PyInt {

  predicate IsDigit(c: char)
  {
    '0' <= c <= '9'
  }

  /** The whitespace `int()` strips from both ends, up to U+00FF: space and
      tab to carriage return among the ASCII characters, which CPython
      keeps as they are and skips by its C-level space test, and next-line
      and no-break space, which it first turns into spaces as Unicode
      whitespace.  The ASCII separators U+001C to U+001F are not among them
      although `str.isspace` accepts them. */
  predicate IsSpace(c: char)
  {
    c == ' ' || '\t' <= c <= '\r' || c == '\U{85}' || c == '\U{a0}'
  }

  /** Digits, with an underscore allowed only between two digits. */
  predicate IsDigitRun(s: string)
  {
    && |s| > 0 && IsDigit(s[0]) && IsDigit(s[|s| - 1])
    && (forall i | 0 <= i < |s| :: IsDigit(s[i]) || s[i] == '_')
    && (forall i | 0 <= i < |s| - 1 :: s[i] == '_' ==> s[i + 1] != '_')
  }

  /** The text without its leading whitespace. */
  function TrimLeft(s: string): (r: string)
    ensures |r| <= |s| && r == s[|s| - |r|..]
    ensures r == [] || !IsSpace(r[0])
    ensures forall i | 0 <= i < |s| - |r| :: IsSpace(s[i])
  {
    if |s| > 0 && IsSpace(s[0]) then TrimLeft(s[1..]) else s
  }

  /** The text without its trailing whitespace. */
  function TrimRight(s: string): (r: string)
    ensures |r| <= |s| && r == s[..|r|]
    ensures r == [] || !IsSpace(r[|r| - 1])
    ensures forall i | |r| <= i < |s| :: IsSpace(s[i])
  {
    if |s| > 0 && IsSpace(s[|s| - 1]) then TrimRight(s[..|s| - 1]) else s
  }

  function Strip(s: string): string
  {
    TrimRight(TrimLeft(s))
  }

  /** The digits after an optional sign. */
  function Body(t: string): string
  {
    if |t| > 0 && (t[0] == '+' || t[0] == '-') then t[1..] else t
  }

  /** `int(s)` returns instead of raising `ValueError`.  Such a text, once
      stripped, starts with a sign or a digit and ends with a digit. */
  function IsIntText(s: string): (ok: bool)
    ensures ok ==> var t := Strip(s);
      && |t| > 0 && (IsDigit(t[0]) || t[0] == '+' || t[0] == '-')
      && IsDigit(t[|t| - 1])
  {
    IsDigitRun(Body(Strip(s)))
  }

  /** The value of a run of digits, underscores skipped. */
  function DigitsValue(s: string): nat
    requires forall i | 0 <= i < |s| :: IsDigit(s[i]) || s[i] == '_'
  {
    if s == [] then 0
    else if s[|s| - 1] == '_' then DigitsValue(s[..|s| - 1])
    else 10 * DigitsValue(s[..|s| - 1]) + DigitValue(s[|s| - 1])
  }

  function DigitValue(c: char): nat
    requires IsDigit(c) || c == '_'
  {
    if c == '_' then 0 else c as int - '0' as int
  }

  /** The number `int(s)` returns for an accepted text: negative only
      after a minus sign, and never positive after one. */
  function IntValue(s: string): (r: int)
    requires IsIntText(s)
    ensures r < 0 ==> Strip(s)[0] == '-'
    ensures Strip(s)[0] == '-' ==> r <= 0
  {
    var t := Strip(s);
    var v: int := DigitsValue(Body(t));
    if t[0] == '-' then -v else v
  }

  /** `str(n)` for a natural number: its decimal numeral. */
  function Decimal(n: nat): (r: string)
    ensures |r| > 0 && (forall i | 0 <= i < |r| :: IsDigit(r[i]))
  {
    if n < 10 then [('0' as int + n) as char]
    else Decimal(n / 10) + [('0' as int + n % 10) as char]
  }

  /** `int(str(n)) == n`: every numeral `str` produces is accepted and
      denotes the number it was made from. */
  lemma DecimalRoundTrip(n: nat)
    ensures IsIntText(Decimal(n)) && IntValue(Decimal(n)) == n
  {
    var d := Decimal(n);
    NoSpaceNoStrip(d);
    DecimalValue(n);
  }

  lemma {:induction false} DecimalValue(n: nat)
    ensures DigitsValue(Decimal(n)) == n
    decreases n
  {
    if n >= 10 {
      DecimalValue(n / 10);
      var d := Decimal(n);
      assert d[..|d| - 1] == Decimal(n / 10);
    }
  }

  /** A text of digits is its own stripped form. */
  lemma NoSpaceNoStrip(d: string)
    requires |d| > 0 && forall i | 0 <= i < |d| :: IsDigit(d[i])
    ensures Strip(d) == d && Body(d) == d
  {
    assert !IsSpace(d[0]) && !IsSpace(d[|d| - 1]);
    Unstripped(d);
  }

  /** A text that neither starts nor ends with whitespace is its own
      stripped form. */
  lemma Unstripped(d: string)
    requires |d| > 0 && !IsSpace(d[0]) && !IsSpace(d[|d| - 1])
    ensures Strip(d) == d
  {
    assert TrimLeft(d) == d;
  }

  /** A signed numeral between whitespace is accepted, its underscore
      skipped. */
  lemma SignedNumeralAccepted()
    ensures IsIntText(" -1_000\n") && IntValue(" -1_000\n") == -1000
  {
    var t := "-1_000";
    StripExample();
    assert t[0] == '-' && t[1..] == "1_000";
    OneThousand();
    NegativeAccepted(" -1_000\n", t);
  }

  /** A stripped text of a minus sign and a digit run is accepted and
      denotes the negated value of the run. */
  lemma NegativeAccepted(s: string, t: string)
    requires Strip(s) == t && |t| > 0 && t[0] == '-' && IsDigitRun(t[1..])
    ensures IsIntText(s) && IntValue(s) == -(DigitsValue(t[1..]) as int)
  {
  }

  lemma StripExample()
    ensures Strip(" -1_000\n") == "-1_000"
  {
    LeftExample();
    RightExample();
  }

  lemma LeftExample()
    ensures TrimLeft(" -1_000\n") == "-1_000\n"
  {
    var s := " -1_000\n";
    assert s[1..] == "-1_000\n";
    assert !IsSpace('-');
  }

  lemma RightExample()
    ensures TrimRight("-1_000\n") == "-1_000"
  {
    var s := "-1_000\n";
    assert s[..|s| - 1] == "-1_000";
    assert !IsSpace('0');
  }

  lemma OneThousand()
    ensures IsDigitRun("1_000") && DigitsValue("1_000") == 1000
  {
    assert "1"[..0] == "";
    assert DigitsValue("1") == 1;
    assert "1_"[..1] == "1";
    assert DigitsValue("1_") == 1;
    assert "1_0"[..2] == "1_";
    assert DigitsValue("1_0") == 10;
    assert "1_00"[..3] == "1_0";
    assert DigitsValue("1_00") == 100;
    assert "1_000"[..4] == "1_00";
  }

  /** Letters, doubled underscores, a leading ASCII separator and the empty
      text are refused. */
  lemma NonNumeralsRefused()
    ensures !IsIntText("abc") && !IsIntText("1__0") && !IsIntText("")
    ensures !IsIntText([FileSeparator, '1'])
  {
    LettersRefused();
    DoubleUnderscoreRefused();
    SeparatorRefused();
  }

  /** U+001C, the first of the ASCII separators. */
  const FileSeparator: char := 0x1c as char

  lemma SeparatorRefused()
    ensures !IsIntText([FileSeparator, '1'])
  {
    var t := [FileSeparator, '1'];
    assert t[0] == FileSeparator && t[|t| - 1] == '1';
    NoLeadingDigitRefused(t);
  }

  lemma LettersRefused()
    ensures !IsIntText("abc")
  {
    var t := "abc";
    assert t[0] == 'a' && t[|t| - 1] == 'c';
    NoLeadingDigitRefused(t);
  }

  lemma DoubleUnderscoreRefused()
    ensures !IsIntText("1__0")
  {
    var t := "1__0";
    assert t[0] == '1' && t[|t| - 1] == '0' && t[1] == '_' && t[2] == '_';
    DoubleUnderscoreAtRefused(t, 1);
  }

  /** A text that starts with neither whitespace, a sign nor a digit is
      refused. */
  lemma NoLeadingDigitRefused(t: string)
    requires |t| > 0 && !IsSpace(t[0]) && !IsSpace(t[|t| - 1])
    requires !IsDigit(t[0]) && t[0] != '+' && t[0] != '-'
    ensures !IsIntText(t)
  {
    Unstripped(t);
  }

  /** Two underscores in a row are refused. */
  lemma DoubleUnderscoreAtRefused(t: string, i: nat)
    requires |t| > 0 && !IsSpace(t[0]) && !IsSpace(t[|t| - 1])
    requires IsDigit(t[0]) && i + 1 < |t| && t[i] == '_' && t[i + 1] == '_'
    ensures !IsIntText(t)
  {
    Unstripped(t);
  }
}

=== FILE: registry.dfy ===
/** Players, rooms and the one-slot pairing queue: `GameManager` of
    backend/game.py. */
module Registry {
  import opened Wrappers
  import opened Ids
  import opened Game

  /** An opaque client channel (a WebSocket object in the source). */
  type Socket = nat

  /** A queued player, stored with their name as the source does. */
  datatype QueueEntry = QueueEntry(name: string, id: PlayerId)

  /** What one handled message may draw from outside: a uuid and the two
      secret words a new room fetches, one per player in player order. */
  datatype Env = Env(draw: string, word1: string, word2: string)

  datatype GameManager = GameManager(
    sockets: map<PlayerId, Socket>,
    queue: seq<QueueEntry>,
    names: map<PlayerId, string>,
    playerIdManager: IdManager,
    roomIdManager: IdManager,
    games: map<RoomId, Game>,
    playerToGame: map<PlayerId, RoomId>)

  const Initial := GameManager(map[], [], map[], EmptyManager, EmptyManager, map[], map[])

  /** What every reachable manager satisfies: at most one waiting player, who
      is registered; every issued id remembered; every room a valid game of
      registered players under its own id; every mapped player's room exists
      and lists them. */
  ghost predicate Inv(gm: GameManager)
  {
    && |gm.queue| <= 1
    && (forall e | e in gm.queue :: e.id in gm.names)
    && gm.sockets.Keys == gm.names.Keys
    && gm.names.Keys <= gm.playerIdManager.used
    && gm.games.Keys <= gm.roomIdManager.used
    && "" !in gm.games
    && GamesOk(gm.games, gm.names.Keys)
    && MappingsOk(gm.games, gm.playerToGame)
  }

  /** Every room is a valid game of registered players under its own id. */
  ghost predicate GamesOk(games: map<RoomId, Game>, registered: set<PlayerId>)
  {
    forall r {:trigger RoomOk(games[r], r, registered)} | r in games :: RoomOk(games[r], r, registered)
  }

  /** Every mapped player's room exists and lists them. */
  ghost predicate MappingsOk(games: map<RoomId, Game>, playerToGame: map<PlayerId, RoomId>)
  {
    forall p {:trigger MappedOk(games, p, playerToGame[p])} | p in playerToGame ::
      MappedOk(games, p, playerToGame[p])
  }

  /** A registered room: a valid game of registered players under its id. */
  ghost predicate RoomOk(g: Game, r: RoomId, registered: set<PlayerId>)
  {
    Valid(g) && g.roomId == r && Players(g) <= registered
  }

  /** A player's room exists and lists them. */
  ghost predicate MappedOk(games: map<RoomId, Game>, p: PlayerId, r: RoomId)
  {
    r in games && |games[r].playerIds| == 2 && p in Players(games[r])
  }

  lemma RoomIsValid(gm: GameManager, r: RoomId)
    requires Inv(gm) && r in gm.games
    ensures Valid(gm.games[r]) && gm.games[r].roomId == r
    ensures Players(gm.games[r]) <= gm.names.Keys
  {
    assert RoomOk(gm.games[r], r, gm.names.Keys);
  }

  lemma PlayerRoomExists(gm: GameManager, p: PlayerId)
    requires Inv(gm) && p in gm.playerToGame
    ensures gm.playerToGame[p] in gm.games
    ensures |gm.games[gm.playerToGame[p]].playerIds| == 2
    ensures p in Players(gm.games[gm.playerToGame[p]])
  {
    assert MappedOk(gm.games, p, gm.playerToGame[p]);
  }

  lemma InitialInv()
    ensures Inv(Initial)
  {
  }

  /** Replacing a room's game by a later state of the same room keeps the
      invariant. */
  lemma ReplaceGameKeepsInv(gm: GameManager, room: RoomId, g: Game)
    requires Inv(gm) && room in gm.games
    requires Valid(g) && SameRoster(gm.games[room], g)
    ensures Inv(gm.(games := gm.games[room := g]))
  {
    RoomIsValid(gm, room);
    assert Players(g) == Players(gm.games[room]);
    ReplaceKeepsGamesOk(gm.games, gm.names.Keys, room, g);
    ReplaceKeepsMappingsOk(gm.games, gm.playerToGame, room, g);
  }

  lemma ReplaceKeepsGamesOk(games: map<RoomId, Game>, registered: set<PlayerId>, room: RoomId, g: Game)
    requires GamesOk(games, registered) && RoomOk(g, room, registered)
    ensures GamesOk(games[room := g], registered)
  {
    var games' := games[room := g];
    forall r | r in games'
      ensures RoomOk(games'[r], r, registered)
    {
      if r != room {
        assert RoomOk(games[r], r, registered);
      }
    }
  }

  lemma ReplaceKeepsMappingsOk(games: map<RoomId, Game>, playerToGame: map<PlayerId, RoomId>, room: RoomId, g: Game)
    requires MappingsOk(games, playerToGame) && room in games
    requires g.playerIds == games[room].playerIds
    ensures MappingsOk(games[room := g], playerToGame)
  {
    forall p | p in playerToGame
      ensures MappedOk(games[room := g], p, playerToGame[p])
    {
      assert MappedOk(games, p, playerToGame[p]);
    }
  }

  /** `create_player`: a fresh id bound to the channel and the name. */
  function CreatePlayer(gm: GameManager, name: string, ws: Socket, draw: string)
    : (r: (GameManager, PlayerId))
    ensures r.1 !in gm.playerIdManager.used && r.1 != ""
    ensures r.0 == gm.(sockets := gm.sockets[r.1 := ws],
                       names := gm.names[r.1 := name],
                       playerIdManager := IdManager(gm.playerIdManager.used + {r.1}))
    ensures Inv(gm) ==> Inv(r.0) && r.1 !in gm.names
  {
    var (id, ids) := GenerateId(gm.playerIdManager, draw);
    var gm' := gm.(sockets := gm.sockets[id := ws], names := gm.names[id := name], playerIdManager := ids);
    assert Inv(gm) ==> Inv(gm') by {
      if Inv(gm) { RegisterKeepsInv(gm, gm', id); }
    }
    (gm', id)
  }

  lemma RegisterKeepsInv(gm: GameManager, gm': GameManager, id: PlayerId)
    requires Inv(gm)
    requires gm'.names.Keys == gm.names.Keys + {id} && gm'.sockets.Keys == gm'.names.Keys
    requires gm.playerIdManager.used + {id} <= gm'.playerIdManager.used
    requires gm' == gm.(sockets := gm'.sockets, names := gm'.names, playerIdManager := gm'.playerIdManager)
    ensures Inv(gm')
  {
    MoreRegisteredKeepsGamesOk(gm.games, gm.names.Keys, gm'.names.Keys);
  }

  lemma MoreRegisteredKeepsGamesOk(games: map<RoomId, Game>, registered: set<PlayerId>, registered': set<PlayerId>)
    requires GamesOk(games, registered) && registered <= registered'
    ensures GamesOk(games, registered')
  {
    forall r | r in games
      ensures RoomOk(games[r], r, registered')
    {
      assert RoomOk(games[r], r, registered);
    }
  }

  /** The `KeyError` of looking up an unregistered player's name. */
  datatype RegistryError = UnregisteredPlayer

  /** `create_game`: a room id is drawn first and the two names are looked
      up after it, so naming an unregistered player is the `KeyError` of
      that lookup with the drawn id already spent and nothing else changed.
      Otherwise a fresh room holds a new game for the two players (in this
      order), both of whom now map to it, and no existing room is touched. */
  function CreateGame(gm: GameManager, p1: PlayerId, p2: PlayerId, env: Env)
    : (r: (GameManager, Result<RoomId, RegistryError>))
    ensures r.1.Err? <==> p1 !in gm.names || p2 !in gm.names
    ensures Inv(gm) ==> Inv(r.0)
    ensures r.1.Err? ==>
      && r.0 == gm.(roomIdManager := r.0.roomIdManager)
      && gm.roomIdManager.used <= r.0.roomIdManager.used
      && |r.0.roomIdManager.used - gm.roomIdManager.used| == 1
    ensures r.1.Ok? ==>
      && var (gm', room) := (r.0, r.1.value);
      && room !in gm.roomIdManager.used && room != ""
      && room in gm'.games && gm'.games == gm.games[room := gm'.games[room]]
      && gm'.games[room] == NewGame(p1, p2, gm.names[p1], gm.names[p2], room, env.word1, env.word2)
      && gm'.playerToGame == gm.playerToGame[p1 := room][p2 := room]
      && gm'.roomIdManager.used == gm.roomIdManager.used + {room}
      && gm' == gm.(roomIdManager := gm'.roomIdManager, games := gm'.games,
                    playerToGame := gm'.playerToGame)
      && (Inv(gm) ==> room !in gm.games)
  {
    var (room, rooms) := GenerateId(gm.roomIdManager, env.draw);
    if p1 !in gm.names || p2 !in gm.names then
      assert rooms.used - gm.roomIdManager.used == {room};
      (gm.(roomIdManager := rooms), Err(UnregisteredPlayer))
    else
      var game := NewGame(p1, p2, gm.names[p1], gm.names[p2], room, env.word1, env.word2);
      var gm' := gm.(roomIdManager := rooms,
                     games := gm.games[room := game],
                     playerToGame := gm.playerToGame[p1 := room][p2 := room]);
      assert Inv(gm) ==> Inv(gm') by {
        if Inv(gm) { NewRoomKeepsInv(gm, gm', room, p1, p2, env.word1, env.word2); }
      }
      (gm', Ok(room))
  }

  lemma NewRoomKeepsInv(gm: GameManager, gm': GameManager, room: RoomId, p1: PlayerId, p2: PlayerId,
                        w1: string, w2: string)
    requires Inv(gm) && p1 in gm.names && p2 in gm.names
    requires room !in gm.roomIdManager.used && room != ""
    requires gm'.roomIdManager.used == gm.roomIdManager.used + {room}
    requires gm'.games == gm.games[room := NewGame(p1, p2, gm.names[p1], gm.names[p2], room, w1, w2)]
    requires gm'.playerToGame == gm.playerToGame[p1 := room][p2 := room]
    requires gm' == gm.(roomIdManager := gm'.roomIdManager, games := gm'.games, playerToGame := gm'.playerToGame)
    ensures Inv(gm')
  {
    var g := NewGame(p1, p2, gm.names[p1], gm.names[p2], room, w1, w2);
    assert room !in gm.games;
    ReplaceKeepsGamesOk(gm.games, gm.names.Keys, room, g);
    AddRoomKeepsMappingsOk(gm.games, gm.playerToGame, room, g, p1, p2);
  }

  lemma AddRoomKeepsMappingsOk(games: map<RoomId, Game>, playerToGame: map<PlayerId, RoomId>, room: RoomId,
                               g: Game, p1: PlayerId, p2: PlayerId)
    requires MappingsOk(games, playerToGame) && room !in games
    requires |g.playerIds| == 2 && Players(g) == {p1, p2}
    ensures MappingsOk(games[room := g], playerToGame[p1 := room][p2 := room])
  {
    var games' := games[room := g];
    var p2g := playerToGame[p1 := room][p2 := room];
    forall p | p in p2g
      ensures MappedOk(games', p, p2g[p])
    {
      if p != p1 && p != p2 {
        assert MappedOk(games, p, playerToGame[p]);
      }
    }
  }

  /** `pair_players`: on an empty queue the player waits and no room is made;
      otherwise the waiting entry is popped and a room [joiner, waiter] is
      created.  The waiting entry is never compared with the joiner. */
  function PairPlayers(gm: GameManager, p: PlayerId, env: Env)
    : (r: Result<(GameManager, Option<RoomId>), RegistryError>)
    requires Inv(gm)
    ensures r.Err? <==> p !in gm.names
    ensures r.Ok? ==> Inv(r.value.0)
    ensures r.Ok? ==>
      && r.value.0.names == gm.names && r.value.0.sockets == gm.sockets
      && gm.playerToGame.Keys <= r.value.0.playerToGame.Keys
      && gm.games.Keys <= r.value.0.games.Keys
      && (forall room | room in gm.games :: r.value.0.games[room] == gm.games[room])
    ensures r.Ok? && gm.queue == [] ==>
      r.value == (gm.(queue := [QueueEntry(gm.names[p], p)]), None)
    ensures r.Ok? && gm.queue != [] ==>
      && r.value.1.Some?
      && var room := r.value.1.value;
      && var w := gm.queue[0].id;
      && room !in gm.games && room != ""
      && r.value.0.queue == []
      && room in r.value.0.games
      && r.value.0.games[room] == NewGame(p, w, gm.names[p], gm.names[w], room, env.word1, env.word2)
      && r.value.0.roomIdManager.used == gm.roomIdManager.used + {room}
      && r.value.0.playerToGame == gm.playerToGame[p := room][w := room]
      && r.value.0.games == gm.games[room := r.value.0.games[room]]
  {
    if p !in gm.names then Err(UnregisteredPlayer)
    else if |gm.queue| == 0 then
      var queue := gm.queue + [QueueEntry(gm.names[p], p)];
      assert queue == [QueueEntry(gm.names[p], p)];
      Ok((gm.(queue := queue), None))
    else
      var (gm', room) := PairWithWaiter(gm, p, env);
      Ok((gm', Some(room)))
  }

  /** The second branch of `pair_players`: pop the waiting entry and create
      the room with the joining player first. */
  function PairWithWaiter(gm: GameManager, p: PlayerId, env: Env): (r: (GameManager, RoomId))
    requires Inv(gm) && p in gm.names && |gm.queue| == 1
    ensures Inv(r.0)
    ensures var (gm', room) := r;
      && var w := gm.queue[0].id;
      && room !in gm.games && room != "" && room in gm'.games
      && gm' == gm.(queue := [], roomIdManager := gm'.roomIdManager, games := gm'.games,
                    playerToGame := gm'.playerToGame)
      && gm'.games == gm.games[room := gm'.games[room]]
      && gm'.games[room] == NewGame(p, w, gm.names[p], gm.names[w], room, env.word1, env.word2)
      && gm'.roomIdManager.used == gm.roomIdManager.used + {room}
      && gm'.playerToGame == gm.playerToGame[p := room][w := room]
  {
    var other := gm.queue[|gm.queue| - 1];
    var popped := gm.(queue := gm.queue[..|gm.queue| - 1]);
    assert popped.queue == [];
    assert Inv(popped);
    var (gm', room) := CreateGame(popped, p, other.id, env);
    (gm', room.value)
  }
}

=== FILE: wrappers.dfy ===
/** Failure-carrying result types shared by every module of the model. */
module Wrappers {

  /** A value that may be absent (Python's `Optional`, JavaScript's "no request"). */
  datatype Option<+T> = None | Some(value: T)

  /** Either a value or the error a Python `raise` would have signalled. */
  datatype Result<+T, +E> = Ok(value: T) | Err(error: E)
}
